=== FILE: README.md ===
# Real-time sales ingestion: Kafka producer, consumers and Pinot provisioning

This project models in Dafny the three programs of a small real-time sales pipeline and
proves properties of the model:

- **`src/producer/data_generator.py`.** A producer draws synthetic sales from a static
  catalogue. It publishes each sale as a JSON message on a Kafka topic, keyed by the
  sale's id.
- **`src/consumer/kafka_consumer.py`.** A plain consumer reads that topic in its own
  consumer group. It decodes every message, hands it to `processar_mensagem`, and counts
  the messages processed without an exception.
- **`src/consumer/pinot_consumer.py`.** The Pinot consumer first provisions an Apache
  Pinot store. It checks the controller's liveness and Kafka's reachability, creates the
  schema and the realtime table if they are not listed, verifies the table with a count
  query and repairs it once (DELETE, then re-create), and checks it with a final count
  query. Only when every step succeeds does it consume the topic. Its loop counts every
  message and runs a health probe query when more than 30 seconds have passed since the
  last one.

The model's modules follow the programs:

| file | module | models |
|---|---|---|
| `wrappers.dfy` | `Wrappers` | `Option` |
| `progress.dfy` | `Progress` | the "every 10 messages" progress log line that all three loops share |
| `environment.dfy` | `Environment` | Docker detection, host/Docker address presets, and the Pinot consumer's settings read from the environment |
| `pinot_resources.dfy` | `PinotResources` | the schema and table documents that are POSTed to the controller |
| `http.dfy` | `Http` | requests, responses as the members the code reads, a script of responses, and counts of mutating requests |
| `provisioning.dfy` | `Provisioning` | `verificar_pinot`, `verificar_kafka`, `criar_schema_pinot`, `criar_tabela_pinot`, `testar_consulta_pinot`, `verificar_tabela_e_corrigir`, and the provisioning steps of `main` |
| `json.dfy` | `JsonValues` | decoded JSON documents, shared by the producer and the consumers |
| `polling.dfy` | `Polling` | the consumer configuration, poll results, and the generic `while running` loop ended by a signal or an exception |
| `pinot_consumer.dfy` | `PinotConsumer` | the Pinot consumer's `main` and its loop |
| `kafka_consumer.dfy` | `KafkaConsumer` | the plain consumer |
| `data_generator.dfy` | `DataGenerator` | the producer |

How the outside world enters the model:

- **The Pinot store's answers.** They are a *script*: the reply to the k-th HTTP request
  of a run is the k-th element, and an exhausted script is a raised request. Every step
  returns the requests it issued, so idempotence and mutation bounds are statements about
  those request lists.
- **Inputs.** Kafka's topic listing, clock readings, random draws, uuids and Faker's
  output are all inputs.
- **Loop endings.** A loop is driven by a sequence of events. Each event is a poll
  result, a signal, or an exception that ends the loop.

## Model

| member | source | states |
|---|---|---|
| Progress.Bump | src/consumer/kafka_consumer.py:129-131 | Counting a message adds one to the count and logs a progress line carrying the new count iff it is a multiple of 10; the log is otherwise unchanged. The same lines recur in src/consumer/pinot_consumer.py:575-577 and src/producer/data_generator.py:171-173. |
| Progress.BumpKeepsMilestones | src/consumer/kafka_consumer.py:128-131 | Counting one more message keeps the progress lines logged exactly at the multiples of 10 reached so far. |
| Environment.Contains | src/consumer/pinot_consumer.py:29 | Substring search is true iff the pattern occurs at some position of the text. |
| Environment.InDocker | src/consumer/pinot_consumer.py:26-31 | The program is in Docker iff the cgroup file could be read and contains "docker"; an unreadable file means not in Docker. |
| Environment.PresetFor | src/consumer/pinot_consumer.py:38-55 | Pinot always reaches Kafka at kafka:9092. The consumer's own Kafka address equals it inside Docker and differs from it on the host. |
| Environment.Getenv | src/consumer/pinot_consumer.py:61 | An environment variable's value when it is set, otherwise the default. |
| Environment.Resolve | src/consumer/pinot_consumer.py:58-72 | Each setting comes from its environment variable when set. Otherwise it falls back to the Docker or host preset (Kafka, controller, broker, Kafka-for-Pinot) or to a fixed default (topic, group "grupo-consumidor-pinot", offset reset, table "vendas"). |
| Environment.OverridesMakeDetectionIrrelevant | src/consumer/pinot_consumer.py:61-72 | When every preset-backed variable is set, the settings do not depend on the cgroup file. |
| Environment.HostPresetSplitsKafkaAddresses | src/consumer/pinot_consumer.py:38-55 | With neither Kafka address configured, the consumer's Kafka address differs from the one handed to Pinot iff the program runs on the host. |
| PinotResources.SalesSchema | src/consumer/pinot_consumer.py:146-179 | The schema document is named after the table. |
| PinotResources.SalesTable | src/consumer/pinot_consumer.py:226-254 | The table document is a REALTIME table named after the table, bound to that schema, and reading the given topic from the given broker list. |
| PinotResources.SalesSchemaColumns | src/consumer/pinot_consumer.py:148-178 | The schema's dimension, metric and date-time fields are exactly the fifteen sale columns, in order. |
| PinotResources.SaleColumnsDistinct | src/consumer/pinot_consumer.py:148-178 | The fifteen column names are pairwise distinct, so the schema has fifteen different columns. |
| PinotResources.DistinctCardinality | src/consumer/pinot_consumer.py:148-178 | A list of pairwise-distinct names has as many distinct names as entries. |
| PinotResources.TableMatchesSchema | src/consumer/pinot_consumer.py:227-233 | The table is bound to the schema of its own name, and its time column is the schema's epoch date-time field in the table's time unit. |
| Provisioning.CreatedDocuments | src/consumer/pinot_consumer.py:226-245 | The created schema and table are both named after the configured table. The table reads the configured topic and reaches Kafka through KAFKA_CONNECT_URL. |
| Provisioning.ProbeFrom | src/consumer/pinot_consumer.py:115-132 | Starting from endpoint i, it GETs the endpoints in order and stops at the first 2xx. It succeeds iff some remaining endpoint answers 2xx, and it tries all of them when none does. |
| Provisioning.CheckController | src/consumer/pinot_consumer.py:102-139 | The controller is up iff one of /health, /, /tables, /schemas answers 2xx. Between one and four GETs are issued, in that order. No endpoint is tried after the first 2xx, and an error or raise moves on to the next endpoint. |
| Provisioning.CheckKafka | src/consumer/pinot_consumer.py:423-462 | Kafka is usable iff its topics could be listed. A missing topic only raises a warning. |
| Provisioning.EnsureSchema | src/consumer/pinot_consumer.py:180-217 | A schema already listed is not created again. Otherwise, including after a failed listing, exactly one POST /schemas follows, and the step succeeds iff it answers 200. |
| Provisioning.EnsureTable | src/consumer/pinot_consumer.py:256-310 | The same check-then-create on /tables, with the table counted as listed iff `<table>_REALTIME` is in the "tables" member of a 200 listing. |
| Provisioning.ProbeQuery | src/consumer/pinot_consumer.py:312-375 | The probe is healthy iff the count query answers 200 with no exceptions and non-empty rows. A sample query follows iff it is healthy and the count is positive. |
| Provisioning.VerifyAndRepair | src/consumer/pinot_consumer.py:377-421 | An accepted count query ends the step with nothing else issued. Otherwise the next request is the DELETE of the table, and a raised DELETE fails the step. |
| Provisioning.RepairOutcome | src/consumer/pinot_consumer.py:403-419 | After a rejected query and an answered DELETE, the table is listed and re-created unless still listed. The step succeeds iff the table is listed or created with 200, and it never queries again. |
| Provisioning.VerifyAndRepairMutations | src/consumer/pinot_consumer.py:403-416 | Verify/repair issues at most one DELETE and creates at most one resource. |
| Provisioning.CheckControllerReadOnly | src/consumer/pinot_consumer.py:115-132 | The liveness probe issues no DELETE or creation. |
| Provisioning.NoneMutate | src/consumer/pinot_consumer.py:115-132 | A list of requests none of which mutates counts no mutation. |
| Provisioning.EnsureSchemaMutations | src/consumer/pinot_consumer.py:196-217 | Ensuring the schema deletes nothing and creates at most once. |
| Provisioning.EnsureTableMutations | src/consumer/pinot_consumer.py:279-310 | Ensuring the table deletes nothing and creates at most once. |
| Provisioning.FromVerificationMutations | src/consumer/pinot_consumer.py:497-532 | Verify/repair plus the final query delete at most once and create at most once. |
| Provisioning.FromTableMutations | src/consumer/pinot_consumer.py:491-532 | From the table step on: at most one DELETE and at most two creations. |
| Provisioning.FromSchemaMutations | src/consumer/pinot_consumer.py:485-532 | From the schema step on: at most one DELETE and at most three creations. |
| Provisioning.ProvisionMutationBound | src/consumer/pinot_consumer.py:474-532 | A whole provisioning run deletes at most once and creates at most three resources: the schema, the table, and the table after the repair. |
| Provisioning.ReadyAfterReadPrefixed | src/consumer/pinot_consumer.py:474-532 | Putting earlier requests in front of a run keeps the property "Ready only after an accepted count query". |
| Provisioning.FromTableReadyAfterRead | src/consumer/pinot_consumer.py:491-532 | From the table step on, Ready is reached only right after an accepted count query. |
| Provisioning.FromSchemaReadyAfterRead | src/consumer/pinot_consumer.py:485-532 | From the schema step on, Ready is reached only right after an accepted count query. |
| Provisioning.ReadyOnlyAfterAcceptedQuery | src/consumer/pinot_consumer.py:502-532 | Provisioning never declares the store ready from a write's status. When it reaches Ready, its last request was a count query answered with 200 and no exceptions. |
| Provisioning.QueryAccepted | src/consumer/pinot_consumer.py:391-393 | Verify/repair and the final query (lines 514-518) accept a count query iff it answers 200 and its "exceptions" member is absent or empty. |
| Provisioning.ProbeHealthy | src/consumer/pinot_consumer.py:330-339 | The periodic probe is healthy iff the count query answers 200, has no exceptions, and has a non-empty result row list. |
| Provisioning.ProbeStricterThanVerify | src/consumer/pinot_consumer.py:330-340 | The periodic probe's classifier implies verify/repair's. A 200 answer with no exceptions and no rows passes verify/repair but fails the probe. |
| Provisioning.Provision | src/consumer/pinot_consumer.py:474-482 | `main` stops with the controller unavailable iff no liveness endpoint answered 2xx, and with Kafka unavailable iff the controller is up but the topics could not be listed; the liveness requests come first. The rest of the run is stated by Provisioning.ReadyIffEveryStepSucceeds, Provisioning.ProvisionMutationBound and Provisioning.ReadyOnlyAfterAcceptedQuery. |
| Provisioning.FromSchema | src/consumer/pinot_consumer.py:484-532 | From the schema step on, the run never reports the liveness or Kafka stage. The schema step's requests come first. It stops with the schema failed iff that step fails, and ends Ready iff the schema step succeeds and the table step run after it ends Ready. |
| Provisioning.FromTable | src/consumer/pinot_consumer.py:490-532 | From the table step on, the run ends in the table, verification, final-query or Ready stage. It stops with the table failed iff the table step fails, and ends Ready iff the table step succeeds and steps 3 and 4 after it end Ready. |
| Provisioning.FromVerification | src/consumer/pinot_consumer.py:496-532 | Steps 3 and 4 stop with verification failed iff verify/repair fails, and end Ready iff verify/repair succeeds and the count query issued right after it is accepted. Otherwise the final query failed. |
| Provisioning.ReadyIffEveryStepSucceeds | src/consumer/pinot_consumer.py:464-537 | `main` reaches the consumer iff liveness, Kafka, schema, table, verify/repair and the final query all succeed, each step run from where the previous one stopped. |
| Provisioning.ProvisionStopsEarly | src/consumer/pinot_consumer.py:474-482 | A failed liveness or Kafka check stops the run before any request about the schema. |
| Provisioning.EmptyStoreScenario | src/consumer/pinot_consumer.py:464-532 | A store without the schema and table that answers 200 everywhere gives: one liveness GET, a list and a create for the schema, a list and a create for the table, two accepted count queries, then Ready. |
| Polling.ConsumerFor | src/consumer/kafka_consumer.py:64-75 | The consumer configuration carries the given address, group and offset reset. Auto-commit is on, and commit interval < session timeout < max poll interval. |
| Polling.InterruptedAfterPoll | src/consumer/kafka_consumer.py:105-108 | After an iteration that polled, a signal or exception still lies ahead iff one lay ahead before it. |
| Polling.Handled | src/consumer/kafka_consumer.py:105-136 | The items handled are exactly the polls before the first signal or exception, and all polls when there is none. |
| Polling.DriveFolds | src/consumer/kafka_consumer.py:105-143 | Running the loop gives the fold of the loop body over the handled polls. It is closed iff a signal or exception stopped it, and still running otherwise. |
| Polling.Drive | src/consumer/kafka_consumer.py:105-143 | The loop ends closed and no longer running iff a signal or an exception occurred among the events; with none it is still running and not closed. Only a signal clears the program's `running` flag (lines 77-81); an exception leaves the loop with the flag still set. The Pinot loop has the same shape (src/consumer/pinot_consumer.py:549-591). |
| PinotConsumer.Consumer | src/consumer/pinot_consumer.py:83-94 | The Pinot consumer's Kafka consumer uses the resolved address, group and offset reset, with auto-commit. |
| PinotConsumer.Start | src/consumer/pinot_consumer.py:545-546 | The loop starts with nothing counted, no progress line, and the probe timer started at the clock reading. |
| PinotConsumer.ProbeQueryReadOnly | src/consumer/pinot_consumer.py:312-375 | The periodic probe issues no DELETE or creation. |
| PinotConsumer.Iterate | src/consumer/pinot_consumer.py:549-577 | After each poll, whatever it returned, a probe runs iff more than 30 s passed (clock readings are real seconds, as `time.time()` returns them) since the last one; the timer restarts then and only then. The counter grows by one iff the poll was a message, and progress is logged at multiples of 10. |
| PinotConsumer.IterationsCount | src/consumer/pinot_consumer.py:545-582 | Over any iterations the counter grows by exactly the number of messages polled and progress lines stay at the multiples of 10. No DELETE or creation is sent, so a failed probe never triggers a repair. |
| PinotConsumer.PinotMain | src/consumer/pinot_consumer.py:464-591 | The run's stage is provisioning's, and the consumer loop exists iff provisioning reached Ready. |
| PinotConsumer.PinotMainProperties | src/consumer/pinot_consumer.py:536-591 | A whole run sends at most one DELETE and three creations. A created consumer ends having counted exactly the messages polled before the signal or exception, and is closed iff one stopped it. |
| KafkaConsumer.Resolve | src/consumer/kafka_consumer.py:24-27 | Each setting comes from its environment variable when set. Otherwise the defaults are localhost:29092, vendas-tempo-real, grupo-consumidor-vendas and earliest. |
| KafkaConsumer.Consumer | src/consumer/kafka_consumer.py:64-75 | The consumer uses the resolved address, group and offset reset, with auto-commit. |
| KafkaConsumer.SeparateGroupsByDefault | src/consumer/kafka_consumer.py:26 | With no group configured, the plain consumer and the Pinot consumer are in different groups, and with no topic configured they read the same topic. So each receives every message. |
| KafkaConsumer.Process | src/consumer/kafka_consumer.py:32-62 | `processar_mensagem` returns iff the value is a JSON object whose valor_total (0 when absent) is a number or a boolean; otherwise it raises. It warns iff that amount is at most 0. |
| KafkaConsumer.Counted | src/consumer/kafka_consumer.py:123-136 | A poll is counted iff it delivered a message whose value decoded as JSON and `processar_mensagem` returned without raising. Empty polls, errors, undecodable values and raised exceptions are not counted. |
| KafkaConsumer.Iterate | src/consumer/kafka_consumer.py:105-136 | The counter grows by one iff the message decoded and was processed without an exception. Anything else leaves the state unchanged, and a warned amount is recorded. |
| KafkaConsumer.IterationsCount | src/consumer/kafka_consumer.py:102-136 | Over any iterations the counter grows by exactly the number of counted messages, and progress lines stay at the multiples of 10. Every recorded warning is for an amount at most 0, with at most one per counted message. |
| KafkaConsumer.Main | src/consumer/kafka_consumer.py:83-143 | The final counter is the number of counted messages polled before a signal or exception, and the consumer is closed iff one stopped the loop. |
| DataGenerator.Resolve | src/producer/data_generator.py:29-30 | Address and topic come from the environment, with the same defaults as the plain consumer. The client id is gerador-vendas (line 139). |
| DataGenerator.ProducerFeedsConsumers | src/producer/data_generator.py:29-30 | Under one environment the producer writes to the topic both consumers read. On the host it reaches the same broker as both consumers. |
| DataGenerator.CategoriesKeyed | src/producer/data_generator.py:37-66 | Every category has five products and a price range. |
| DataGenerator.StatesKeyed | src/producer/data_generator.py:70-76 | Every state has at least one store city. |
| DataGenerator.CatalogueKeyedByCategories | src/producer/data_generator.py:37-66 | There are ten distinct categories, and the product and price tables are keyed by exactly them, so the lookups after a draw cannot fail. |
| DataGenerator.PriceRangesValid | src/producer/data_generator.py:55-66 | Every price range's minimum lies below its maximum. |
| DataGenerator.StateOrderMatchesStores | src/producer/data_generator.py:103 | The list of states drawn from is exactly the key set of the store table. |
| DataGenerator.Choice | src/producer/data_generator.py:92-93 | `random.choice` returns an element of the list. |
| DataGenerator.RandInt | src/producer/data_generator.py:96 | `random.randint` returns a value within both bounds. |
| DataGenerator.ChoiceAt | src/producer/data_generator.py:92-93 | Every element of a list is the choice of some draw. |
| DataGenerator.RandIntAt | src/producer/data_generator.py:96 | Every value of a range is the outcome of some draw. |
| DataGenerator.Decimal | src/producer/data_generator.py:105 | `str(n)` of a natural number is a non-empty string of decimal digits. |
| DataGenerator.DecimalDenotes | src/producer/data_generator.py:105 | The digits `str(n)` prints denote n under the independent digit-value reading `DigitsValue`, and start with 0 iff n = 0. |
| DataGenerator.StoreNumberDetermined | src/producer/data_generator.py:105 | Two store names `<city>-<m>` and `<city>-<n>` of the same city are equal only when m = n. |
| DataGenerator.PickProduct | src/producer/data_generator.py:92-93 | The drawn product belongs to the drawn category. |
| DataGenerator.PickStore | src/producer/data_generator.py:103-105 | The drawn city belongs to the drawn state, and the store is `<city>-<n>` with n in 1..10. |
| DataGenerator.PickProductCovers | src/producer/data_generator.py:92-93 | Every product of every category is drawn by some pair of draws. |
| DataGenerator.PickStoreCovers | src/producer/data_generator.py:103-105 | Every store of every city of every state is drawn by some draws. |
| DataGenerator.GenerateSale | src/producer/data_generator.py:79-124 | A sale's product belongs to its category, its quantity is in 1..5, its payment is one of the five forms, its city belongs to its state, its store is `<city>-<1..10>`, and its ids and timestamp are the given ones. |
| DataGenerator.GenerateSaleCoversCatalogue | src/producer/data_generator.py:79-124 | Conversely, every combination of category, product, quantity, payment, state, city and store number is generated by some draws. |
| DataGenerator.Encode | src/producer/data_generator.py:108-124 | The record is a JSON object carrying the sale id under id_venda and the total under valor_total. |
| DataGenerator.EncodeColumns | src/producer/data_generator.py:108-124 | The record's keys are exactly the fifteen column names. |
| DataGenerator.EncodeCarriesCustomer | src/producer/data_generator.py:110-114 | The record carries the sale's timestamp, date-time, customer id, name and e-mail under their column names. |
| DataGenerator.EncodeCarriesProduct | src/producer/data_generator.py:115-118 | The record carries the product, its category, the unit price and the quantity under their column names. |
| DataGenerator.EncodeCarriesStore | src/producer/data_generator.py:120-123 | The record carries the payment form, the store, its city and its state under their column names. |
| DataGenerator.GeneratedRecordInCatalogue | src/producer/data_generator.py:79-124 | The record of a generated sale names a catalogue product of its category, a quantity in 1..5, one of the five payment forms, and a store city of its state. |
| DataGenerator.RecordMatchesSchema | src/producer/data_generator.py:108-124 | Every record's keys are exactly the field names of the Pinot schema, whatever the table is called. |
| DataGenerator.RecordsAreProcessed | src/producer/data_generator.py:108-124 | The plain consumer processes every record the producer sends without an exception, so it counts each one. |
| DataGenerator.Emit | src/producer/data_generator.py:152-177 | One iteration appends exactly one message on the topic whose value is the record of the sale drawn in that round, keyed by the sale's id, and one the plain consumer counts. It adds one to the counter, keeps the progress lines, and appends one pause in [500, 2000] ms. |
| DataGenerator.EmitsKeyedMessages | src/producer/data_generator.py:150-177 | Over any iterations: one message per round, each carrying the record of a generated sale, keyed by that sale's id and counted by the plain consumer. The counter equals the number of messages, progress lines fall on the multiples of 10, and every pause lies in [500, 2000] ms. |
| DataGenerator.GeneratorMain | src/producer/data_generator.py:143-185 | The producer sends one message per round until interrupted, each the record of a generated sale, keyed by its id and counted by the plain consumer. It flushes iff a KeyboardInterrupt or another exception ended the loop. |

## Left out

- Real I/O is replaced by inputs. This covers the HTTP calls (a script of answers), the Kafka metadata call, `poll`, `produce` and `flush`, and the cgroup file.
- The clock, `random`, `uuid` and Faker are inputs: the draws of a `Draws` value, `Tick` clock readings, and the probe timer's readings.
- Sleeps are left out because they only delay: `time.sleep(5)` after creating a table, `time.sleep(3)` after the DELETE, the 0.01 s pause in `processar_mensagem`, and the producer's pause. The pause's length in milliseconds is kept.
- Log output is not modelled. The progress lines are kept as the list of counts they report, and the warnings of `processar_mensagem` as the amounts warned about.
- Floating point is not modelled. `preco` and `valor_total` are given as reals, not computed with `random.uniform`, `round` and float multiplication, so the price range and total are not proved.
- Response bodies are a view of the members the code reads: names, "tables", "exceptions", and the first cell of each result row. A 200 answer whose body does not parse, or has an unexpected shape, is not modelled; in the code it raises inside the step.
- The sample row fetched by the probe is issued but its answer is only logged, so it is not inspected.
- Provisioning.CheckKafka takes the topic listing as given. The temporary `-test` consumer it uses and the IS_DOCKER hint in its warning are left out.
- JSON decoding is abstracted: a message's payload is the decoded value, or none when `json.loads` fails. NaN/Infinity and byte encodings (UTF-8 of key and value) are not modelled, and message keys are strings.
- `delivery_report` and `produtor.poll(0)` are left out: they only log delivery outcomes.
- Signals and exceptions end a loop at iteration boundaries. In the two consumers a signal only clears the `running` flag, which the loop reads at its next check, so this is exact for signals there. An exception that ends a consumer loop (a `KafkaException`, which comes from `poll` at the start of an iteration) is placed at the iteration boundary before that iteration.
- DataGenerator.GeneratorMain: the producer installs no signal handler. A Ctrl-C raises KeyboardInterrupt wherever the program is, so it can fall between `produtor.produce` (`src/producer/data_generator.py:160`) and `contador += 1` (`:171`), leaving one message sent but not counted; the model places every interrupt at a round boundary, where `|sent| == counter` holds. A SIGTERM ends the process without running the `finally` block, so nothing is flushed; the model's `Signal` stands only for KeyboardInterrupt, after which the flush does run.
- KafkaConsumer.Process: JSON numbers are exact rationals, not Python's int and float. An integer literal too large for a float (such as 1 followed by 400 zeros) makes `f"{valor:.2f}"` (`src/consumer/kafka_consumer.py:46`) raise OverflowError, so the code skips the message while the model counts it. A float literal that underflows to 0.0 (such as 1e-400) draws a warning in the code but not in the model.
- Only the liveness GET passes a timeout (`timeout=5`, `src/consumer/pinot_consumer.py:120`). Every other request to the store (lines 186, 201, 262, 284, 322, 347, 385, 410 and 508) has none and can block forever. The model assumes every request is answered or raises, so its statements about provisioning, `Provisioning.ReadyIffEveryStepSucceeds` among them, are about runs whose requests all return.
- DataGenerator.RecordMatchesSchema: states the record's column names, not that each value has the column's declared type. The type-by-type proof over the fifteen-entry record was too costly for the verifier.
- Environment.InDocker: the cgroup file's content is an input, and a failure to read it is `None`.

## Notes on the code

- A creation counts as successful only when the controller answers exactly 200. A 409 "already exists" answer, or any other 2xx, fails the step and stops `main` (`src/consumer/pinot_consumer.py:207-212` and `:290-305`). Idempotence therefore rests only on the listing check before the POST.
- A failed schema or table listing (non-200 or raised) is treated as "not listed", and the resource is created anyway.
- Verify/repair does not verify again after re-creating the table: its outcome is the outcome of the creation. `main` then issues its own final count query, so a healthy store sees two count queries before consumption.
- Verify/repair and the final query accept any 200 answer without exceptions, rows or no rows. Only the periodic probe requires a non-empty result row (Provisioning.ProbeStricterThanVerify).
- A DELETE that raises makes verify/repair return False through its outer `except Exception`. A DELETE that answers with any status goes on to re-create the table.
- The periodic probe's verdict is only logged: the Pinot loop never repairs the store after a failed probe.

=== FILE: data_generator.dfy ===
/** The synthetic sales producer: `gerar_venda` builds one sale from a static catalogue
    and `main` sends one JSON message per sale, keyed by the sale's id, until it is
    interrupted. Every random draw, clock reading, uuid and Faker output is an input. */
module DataGenerator {
  import opened Wrappers
  import opened Polling
  import opened JsonValues
  import Progress
  import PinotResources
  import KafkaConsumer
  import Environment

  /** The producer's settings: address and topic from the environment, a fixed client id. */
  datatype Settings = Settings(bootstrap: string, topic: string, clientId: string)

  function Resolve(env: map<string, string>): (s: Settings)
    ensures "KAFKA_BOOTSTRAP_SERVERS" in env ==> s.bootstrap == env["KAFKA_BOOTSTRAP_SERVERS"]
    ensures "KAFKA_BOOTSTRAP_SERVERS" !in env ==> s.bootstrap == "localhost:29092"
    ensures "KAFKA_TOPIC" in env ==> s.topic == env["KAFKA_TOPIC"]
    ensures "KAFKA_TOPIC" !in env ==> s.topic == "vendas-tempo-real"
    ensures s.clientId == "gerador-vendas"
  {
    Settings(
      Environment.Getenv(env, "KAFKA_BOOTSTRAP_SERVERS", "localhost:29092"),
      Environment.Getenv(env, "KAFKA_TOPIC", "vendas-tempo-real"),
      "gerador-vendas")
  }

  /** Under one environment the producer writes to the topic both consumers read, and
      on the host with no address configured it reaches the same broker as the plain
      consumer and the Pinot consumer. */
  lemma ProducerFeedsConsumers(cgroup: Option<string>, env: map<string, string>)
    ensures Resolve(env).topic == KafkaConsumer.Resolve(env).topic == Environment.Resolve(cgroup, env).kafkaTopic
    ensures !Environment.InDocker(cgroup) ==>
      Resolve(env).bootstrap == KafkaConsumer.Resolve(env).bootstrap == Environment.Resolve(cgroup, env).kafkaBootstrap
  {
  }

  const Categories: seq<string> := [
    "Eletrônicos", "Roupas", "Alimentos", "Livros", "Móveis",
    "Esportes", "Beleza", "Brinquedos", "Ferramentas", "Jóias"]

  const Products: map<string, seq<string>> := map[
    "Eletrônicos" := ["Smartphone", "Notebook", "Tablet", "Smart TV", "Fones de Ouvido"],
    "Roupas" := ["Camisa", "Calça", "Vestido", "Casaco", "Tênis"],
    "Alimentos" := ["Café", "Chocolate", "Pão", "Arroz", "Feijão"],
    "Livros" := ["Romance", "Técnico", "Biografia", "Ficção", "Auto-ajuda"],
    "Móveis" := ["Sofá", "Mesa", "Cadeira", "Armário", "Cama"],
    "Esportes" := ["Bola", "Raquete", "Tênis Esportivo", "Luvas", "Bicicleta"],
    "Beleza" := ["Perfume", "Shampoo", "Maquiagem", "Creme", "Batom"],
    "Brinquedos" := ["Boneca", "Carrinho", "Jogo de Tabuleiro", "Quebra-cabeça", "Pelúcia"],
    "Ferramentas" := ["Martelo", "Furadeira", "Alicate", "Serra", "Chave de Fenda"],
    "Jóias" := ["Anel", "Colar", "Brinco", "Pulseira", "Relógio"]]

  /** The (min, max) price of each category, in reais. */
  const Prices: map<string, (int, int)> := map[
    "Eletrônicos" := (500, 5000),
    "Roupas" := (50, 500),
    "Alimentos" := (5, 100),
    "Livros" := (30, 200),
    "Móveis" := (300, 3000),
    "Esportes" := (50, 1000),
    "Beleza" := (20, 300),
    "Brinquedos" := (30, 500),
    "Ferramentas" := (40, 800),
    "Jóias" := (100, 5000)]

  const Payments: seq<string> := ["Crédito", "Débito", "Dinheiro", "PIX", "Boleto"]

  /** The store cities of each state. */
  const Stores: map<string, seq<string>> := map[
    "SP" := ["São Paulo", "Campinas", "Santos", "Guarulhos"],
    "RJ" := ["Rio de Janeiro", "Niterói", "Petrópolis"],
    "MG" := ["Belo Horizonte", "Contagem", "Juiz de Fora"],
    "RS" := ["Porto Alegre", "Caxias do Sul", "Pelotas"],
    "PR" := ["Curitiba", "Londrina", "Maringá"]]

  /** `list(ESTADOS_LOJAS.keys())`: the states in the order the dictionary declares them. */
  const StateOrder: seq<string> := ["SP", "RJ", "MG", "RS", "PR"]

  /** Bounds of the pause between two messages, in milliseconds. */
  const PauseMinMs: int := 500
  const PauseMaxMs: int := 2000

  /** Every category has five products and a price range. */
  lemma CategoriesKeyed()
    ensures forall c :: c in Categories ==> c in Products && c in Prices && |Products[c]| == 5
  {
  }

  /** Every state in the drawing order has store cities. */
  lemma StatesKeyed()
    ensures forall e :: e in StateOrder ==> e in Stores && |Stores[e]| > 0
  {
  }

  /** The product and price tables are keyed by exactly the ten categories, so the
      lookups after drawing a category cannot fail. */
  lemma CatalogueKeyedByCategories()
    ensures |Categories| == 10 && PinotResources.Distinct(Categories)
    ensures Products.Keys == set c | c in Categories
    ensures Prices.Keys == set c | c in Categories
  {
  }

  /** Every price range is non-empty: its minimum lies below its maximum. */
  lemma PriceRangesValid()
    ensures forall c :: c in Prices ==> Prices[c].0 < Prices[c].1
  {
  }

  /** The drawing order lists exactly the states of the store table. */
  lemma StateOrderMatchesStores()
    ensures Stores.Keys == set e | e in StateOrder
  {
  }

  /** `random.choice`, driven by the draw `u`. */
  function Choice<T>(xs: seq<T>, u: nat): (x: T)
    requires |xs| > 0
    ensures x in xs
  {
    xs[u % |xs|]
  }

  /** `random.randint(lo, hi)`, both ends included, driven by the draw `u`. */
  function RandInt(lo: int, hi: int, u: nat): (n: int)
    requires lo <= hi
    ensures lo <= n <= hi
  {
    lo + u % (hi - lo + 1)
  }

  /** Every element of a list is some draw's choice. */
  lemma ChoiceAt<T>(xs: seq<T>, i: nat)
    requires i < |xs|
    ensures Choice(xs, i) == xs[i]
  {
  }

  /** Every value of a range is some draw's outcome. */
  lemma RandIntAt(lo: int, hi: int, n: int)
    requires lo <= n <= hi
    ensures RandInt(lo, hi, (n - lo) as nat) == n
  {
  }

  /** A non-empty string of decimal digits. */
  predicate IsDigits(s: string)
  {
    |s| > 0 && forall k :: 0 <= k < |s| ==> '0' <= s[k] <= '9'
  }

  /** The number a string of decimal digits denotes, most significant digit first. */
  function DigitsValue(s: string): nat
    requires forall k :: 0 <= k < |s| ==> '0' <= s[k] <= '9'
  {
    if |s| == 0 then 0
    else DigitsValue(s[..|s| - 1]) * 10 + (s[|s| - 1] as int - '0' as int)
  }

  /** `str(n)` for a natural number; `DecimalDenotes` states what the digits mean. */
  function Decimal(n: nat): (s: string)
    ensures IsDigits(s)
  {
    var digit := [('0' as int + n % 10) as char];
    if n < 10 then digit else Decimal(n / 10) + digit
  }

  /** The digits `str(n)` prints denote `n`, with no leading zero unless `n` is 0. */
  lemma {:induction false} DecimalDenotes(n: nat)
    ensures DigitsValue(Decimal(n)) == n
    ensures Decimal(n)[0] == '0' <==> n == 0
  {
    if n >= 10 {
      DecimalDenotes(n / 10);
      var s := Decimal(n);
      assert s[..|s| - 1] == Decimal(n / 10);
    }
  }

  /** Different numbers print differently, so a store name `<city>-<n>` determines `n`. */
  lemma StoreNumberDetermined(cidade: string, m: nat, n: nat)
    requires cidade + "-" + Decimal(m) == cidade + "-" + Decimal(n)
    ensures m == n
  {
    DecimalDenotes(m);
    DecimalDenotes(n);
    var k := |cidade| + 1;
    assert (cidade + "-" + Decimal(m))[k..] == Decimal(m);
    assert (cidade + "-" + Decimal(n))[k..] == Decimal(n);
  }

  /** The outcomes of every external call one `gerar_venda` makes: the clock (epoch
      milliseconds and its ISO text), the two uuids, Faker's name and e-mail, the random
      draws, and the two amounts, which are floats and are taken as given. */
  datatype Draws = Draws(
    epochMillis: int, isoTime: string,
    clientId: string, clientName: string, clientEmail: string, saleId: string,
    category: nat, product: nat, price: real, quantity: nat, total: real,
    payment: nat, state: nat, city: nat, store: nat)

  /** One sale record. */
  datatype Sale = Sale(
    idVenda: string, timestamp: int, dataHora: string,
    idCliente: string, nomeCliente: string, emailCliente: string,
    produto: string, categoria: string, preco: real, quantidade: int, valorTotal: real,
    formaPagamento: string, loja: string, cidade: string, estado: string)

  /** The category, then a product of that category. */
  function PickProduct(category: nat, product: nat): (cp: (string, string))
    ensures cp.0 in Categories && cp.0 in Products && cp.1 in Products[cp.0]
  {
    CategoriesKeyed();
    var categoria := Choice(Categories, category);
    (categoria, Choice(Products[categoria], product))
  }

  /** The state, then a city of that state, then the store `<city>-<n>`, n in [1, 10]. */
  function PickStore(state: nat, city: nat, store: nat): (ecl: (string, string, string))
    ensures ecl.0 in Stores && ecl.1 in Stores[ecl.0]
    ensures exists n :: 1 <= n <= 10 && ecl.2 == ecl.1 + "-" + Decimal(n)
  {
    StatesKeyed();
    var estado := Choice(StateOrder, state);
    var cidade := Choice(Stores[estado], city);
    var n := RandInt(1, 10, store);
    (estado, cidade, cidade + "-" + Decimal(n))
  }

  /** Every product of every category is drawn by some pair of draws. */
  lemma PickProductCovers(c: nat, p: nat)
    requires c < |Categories| && Categories[c] in Products && p < |Products[Categories[c]]|
    ensures PickProduct(c, p) == (Categories[c], Products[Categories[c]][p])
  {
    CategoriesKeyed();
    assert Categories[c] in Categories;
    ChoiceAt(Categories, c);
    ChoiceAt(Products[Categories[c]], p);
  }

  /** Every store of every city of every state is drawn by some draws. */
  lemma PickStoreCovers(e: nat, ci: nat, n: int)
    requires e < |StateOrder| && StateOrder[e] in Stores && ci < |Stores[StateOrder[e]]| && 1 <= n <= 10
    ensures var cidade := Stores[StateOrder[e]][ci];
      PickStore(e, ci, (n - 1) as nat) == (StateOrder[e], cidade, cidade + "-" + Decimal(n))
  {
    StatesKeyed();
    assert StateOrder[e] in StateOrder;
    ChoiceAt(StateOrder, e);
    ChoiceAt(Stores[StateOrder[e]], ci);
    RandIntAt(1, 10, n);
  }

  /** `gerar_venda`. */
  function GenerateSale(d: Draws): (s: Sale)
    ensures s.categoria in Categories && s.categoria in Products && s.produto in Products[s.categoria]
    ensures 1 <= s.quantidade <= 5
    ensures s.formaPagamento in Payments
    ensures s.estado in Stores && s.cidade in Stores[s.estado]
    ensures exists n :: 1 <= n <= 10 && s.loja == s.cidade + "-" + Decimal(n)
    ensures s.idVenda == d.saleId && s.idCliente == d.clientId && s.timestamp == d.epochMillis
  {
    var (categoria, produto) := PickProduct(d.category, d.product);
    var (estado, cidade, loja) := PickStore(d.state, d.city, d.store);
    Sale(d.saleId, d.epochMillis, d.isoTime, d.clientId, d.clientName, d.clientEmail,
         produto, categoria, d.price, RandInt(1, 5, d.quantity), d.total,
         Choice(Payments, d.payment), loja, cidade, estado)
  }

  /** Every combination the catalogue allows is generated by some draws: the generator
      covers the whole catalogue and nothing else. */
  lemma GenerateSaleCoversCatalogue(d: Draws, c: nat, p: nat, q: int, m: nat, e: nat, ci: nat, n: int)
    requires c < |Categories| && Categories[c] in Products && p < |Products[Categories[c]]| && 1 <= q <= 5 && m < |Payments|
    requires e < |StateOrder| && StateOrder[e] in Stores && ci < |Stores[StateOrder[e]]| && 1 <= n <= 10
    ensures var s := GenerateSale(d.(category := c, product := p, quantity := (q - 1) as nat,
                                     payment := m, state := e, city := ci, store := (n - 1) as nat));
      && s.categoria == Categories[c] && s.produto == Products[Categories[c]][p]
      && s.quantidade == q && s.formaPagamento == Payments[m]
      && s.estado == StateOrder[e] && s.cidade == Stores[StateOrder[e]][ci]
      && s.loja == s.cidade + "-" + Decimal(n)
  {
    var d' := d.(category := c, product := p, quantity := (q - 1) as nat,
                 payment := m, state := e, city := ci, store := (n - 1) as nat);
    var s := GenerateSale(d');
    PickProductCovers(c, p);
    PickStoreCovers(e, ci, n);
    ChoiceAt(Payments, m);
    RandIntAt(1, 5, q);
    assert (s.categoria, s.produto) == PickProduct(c, p);
    assert (s.estado, s.cidade, s.loja) == PickStore(e, ci, (n - 1) as nat);
  }

  /** The record as the JSON object `json.dumps` serialises. `EncodeColumns` states its
      keys and `EncodeCarriesCustomer`, `EncodeCarriesProduct` and `EncodeCarriesStore` the
      values of the columns not stated here. */
  function Encode(s: Sale): (j: Json)
    ensures j.JObject? && "id_venda" in j.members && "valor_total" in j.members
    ensures j.members["id_venda"] == JString(s.idVenda) && j.members["valor_total"] == JNumber(s.valorTotal)
  {
    JObject(map[
      "id_venda" := JString(s.idVenda),
      "timestamp" := JNumber(s.timestamp as real),
      "data_hora" := JString(s.dataHora),
      "id_cliente" := JString(s.idCliente),
      "nome_cliente" := JString(s.nomeCliente),
      "email_cliente" := JString(s.emailCliente),
      "produto" := JString(s.produto),
      "categoria" := JString(s.categoria),
      "preco" := JNumber(s.preco),
      "quantidade" := JNumber(s.quantidade as real),
      "valor_total" := JNumber(s.valorTotal),
      "forma_pagamento" := JString(s.formaPagamento),
      "loja" := JString(s.loja),
      "cidade" := JString(s.cidade),
      "estado" := JString(s.estado)])
  }

  /** The record's members are exactly the fifteen sale columns. */
  lemma EncodeColumns(s: Sale)
    ensures Encode(s).members.Keys == set c | c in PinotResources.SaleColumns
  {
  }

  /** The record carries the sale's time and customer under their column names. */
  lemma EncodeCarriesCustomer(s: Sale)
    ensures Encode(s).members["timestamp"] == JNumber(s.timestamp as real)
    ensures Encode(s).members["data_hora"] == JString(s.dataHora)
    ensures Encode(s).members["id_cliente"] == JString(s.idCliente)
    ensures Encode(s).members["nome_cliente"] == JString(s.nomeCliente)
    ensures Encode(s).members["email_cliente"] == JString(s.emailCliente)
  {
  }

  /** The record carries the product, its category, price and quantity under their column names. */
  lemma EncodeCarriesProduct(s: Sale)
    ensures Encode(s).members["produto"] == JString(s.produto)
    ensures Encode(s).members["categoria"] == JString(s.categoria)
    ensures Encode(s).members["preco"] == JNumber(s.preco)
    ensures Encode(s).members["quantidade"] == JNumber(s.quantidade as real)
  {
  }

  /** The record carries the payment form and the store under their column names. */
  lemma EncodeCarriesStore(s: Sale)
    ensures Encode(s).members["forma_pagamento"] == JString(s.formaPagamento)
    ensures Encode(s).members["loja"] == JString(s.loja)
    ensures Encode(s).members["cidade"] == JString(s.cidade)
    ensures Encode(s).members["estado"] == JString(s.estado)
  {
  }

  /** A generated sale's record names a catalogue product of its category, a quantity in
      1..5, one of the payment forms, and a store of a city of its state. */
  lemma GeneratedRecordInCatalogue(d: Draws)
    ensures var s := GenerateSale(d);
      var m := Encode(s).members;
      && m["categoria"] == JString(s.categoria) && s.categoria in Products
      && m["produto"] == JString(s.produto) && s.produto in Products[s.categoria]
      && m["quantidade"] == JNumber(s.quantidade as real) && 1 <= s.quantidade <= 5
      && m["forma_pagamento"] == JString(s.formaPagamento) && s.formaPagamento in Payments
      && m["estado"] == JString(s.estado) && s.estado in Stores
      && m["cidade"] == JString(s.cidade) && s.cidade in Stores[s.estado]
  {
    var s := GenerateSale(d);
    EncodeCarriesProduct(s);
    EncodeCarriesStore(s);
  }

  /** Every record the producer sends has exactly the fifteen columns of the Pinot schema
      the consumer declares, whatever the table is called. */
  lemma RecordMatchesSchema(s: Sale, table: string)
    ensures var names := PinotResources.FieldNames(PinotResources.SalesSchema(table));
      Encode(s).members.Keys == set c | c in names
  {
    PinotResources.SalesSchemaColumns(table);
    EncodeColumns(s);
  }

  /** The plain consumer processes every record the producer sends without an exception,
      so each one is counted. */
  lemma RecordsAreProcessed(s: Sale)
    ensures KafkaConsumer.Process(Encode(s)).Returned?
    ensures KafkaConsumer.Counted(Delivered(Some(Encode(s))))
  {
  }

  /** A message handed to the producer: topic, key and value. */
  datatype Message = Message(topic: string, key: string, value: Json)

  /** The inputs of one iteration of `while True`: the sale's draws and the pause's. */
  datatype Round = Round(sale: Draws, pause: nat)

  /** The producer's state: the messages produced, the counter, the progress lines and
      the pauses slept, in milliseconds. */
  datatype Producer = Producer(sent: seq<Message>, counter: nat, progress: seq<nat>, pauses: seq<int>)

  /** A message whose key is the id of the sale it carries. */
  predicate KeyedById(m: Message)
  {
    m.value.JObject? && "id_venda" in m.value.members && m.value.members["id_venda"] == JString(m.key)
  }

  /** A message as `main` sends it: on the topic, carrying the record of some generated
      sale, keyed by that sale's id, and one the plain consumer counts. */
  ghost predicate SaleMessage(topic: string, m: Message)
  {
    && m.topic == topic && KeyedById(m)
    && (exists d :: m.value == Encode(GenerateSale(d)))
    && KafkaConsumer.Counted(Delivered(Some(m.value)))
  }

  /** One iteration: generate a sale, produce its record on the topic keyed by its id,
      count it, then pause. The message is one the plain consumer counts. */
  function Emit(topic: string, st: Producer, r: Round): (next: Producer)
    ensures next.counter == st.counter + 1
    ensures st.sent <= next.sent && |next.sent| == |st.sent| + 1
    ensures var m := next.sent[|st.sent|];
      m.topic == topic && KeyedById(m) && m.key == GenerateSale(r.sale).idVenda
      && m.value == Encode(GenerateSale(r.sale))
      && KafkaConsumer.Counted(Delivered(Some(m.value)))
    ensures st.progress == Progress.Milestones(st.counter) ==>
      next.progress == Progress.Milestones(next.counter)
    ensures st.pauses <= next.pauses && |next.pauses| == |st.pauses| + 1
    ensures PauseMinMs <= next.pauses[|st.pauses|] <= PauseMaxMs
  {
    var sale := GenerateSale(r.sale);
    RecordsAreProcessed(sale);
    var (counter, progress) := Progress.Bump(st.counter, st.progress);
    var next := Producer(st.sent + [Message(topic, sale.idVenda, Encode(sale))], counter, progress,
                         st.pauses + [RandInt(PauseMinMs, PauseMaxMs, r.pause)]);
    if st.progress == Progress.Milestones(st.counter) then
      Progress.BumpKeepsMilestones(st.counter, st.progress);
      next
    else next
  }

  /** `Emit` as the loop body `Drive` runs. */
  function Body(topic: string): (Producer, Round) -> Producer
  {
    (p: Producer, x: Round) => Emit(topic, p, x)
  }

  /** Over any iterations: one message per round, on the configured topic, each carrying
      the record of a generated sale, keyed by that sale's id and counted by the plain
      consumer; the counter
      equals the number of messages, progress lines fall exactly on its multiples of 10,
      and every pause lies within [500, 2000] ms. */
  lemma {:induction false} EmitsKeyedMessages(topic: string, st: Producer, rs: seq<Round>)
    requires st.progress == Progress.Milestones(st.counter) && st.counter == |st.sent|
    requires |st.pauses| == |st.sent|
    decreases |rs|
    ensures var r := Fold(Body(topic), st, rs);
      && st.sent <= r.sent && |r.sent| == |st.sent| + |rs| == r.counter
      && r.progress == Progress.Milestones(r.counter)
      && |r.pauses| == |r.sent| && st.pauses <= r.pauses
      && (forall i :: |st.sent| <= i < |r.sent| ==> SaleMessage(topic, r.sent[i]))
      && (forall i :: |st.pauses| <= i < |r.pauses| ==> PauseMinMs <= r.pauses[i] <= PauseMaxMs)
  {
    if |rs| > 0 {
      var next := Emit(topic, st, rs[0]);
      assert Body(topic)(st, rs[0]) == next;
      EmitsKeyedMessages(topic, next, rs[1..]);
      var r := Fold(Body(topic), next, rs[1..]);
      assert Fold(Body(topic), st, rs) == r;
      forall i | |st.sent| <= i < |r.sent|
        ensures SaleMessage(topic, r.sent[i])
      {
        if i == |st.sent| {
          assert r.sent[i] == next.sent[i];
          assert r.sent[i].value == Encode(GenerateSale(rs[0].sale));
        }
      }
      assert r.pauses[|st.pauses|] == next.pauses[|st.pauses|];
    }
  }

  /** `main`: rounds until a KeyboardInterrupt (a Signal) or any other exception (a
      Crash); `closed` is the flush of the `finally` block, which runs in both cases. */
  function GeneratorMain(s: Settings, evs: seq<Event<Round>>): (r: Outcome<Producer>)
    ensures r.closed == Interrupted(evs) && |r.state.sent| == |Handled(evs)| == r.state.counter
    ensures r.state.progress == Progress.Milestones(r.state.counter)
    ensures forall i :: 0 <= i < |r.state.sent| ==> SaleMessage(s.topic, r.state.sent[i])
    ensures forall i :: 0 <= i < |r.state.pauses| ==> PauseMinMs <= r.state.pauses[i] <= PauseMaxMs
  {
    var st := Producer([], 0, [], []);
    DriveFolds(Body(s.topic), st, evs);
    EmitsKeyedMessages(s.topic, st, Handled(evs));
    Drive(Body(s.topic), st, evs)
  }
}

=== FILE: environment.dfy ===
/** Process configuration of the Pinot consumer: detection of a Docker container from the
    cgroup file of process 1, the two address presets, and the environment variables that
    override them. The file read and the environment are inputs of the model. */
module Environment {
  import opened Wrappers

  /** `pat` occurs in `text` starting at index `i`. */
  predicate OccursAt(text: string, pat: string, i: int)
  {
    0 <= i && i + |pat| <= |text| && text[i..i + |pat|] == pat
  }

  /** Python's substring test `pat in text`. */
  function Contains(text: string, pat: string): (b: bool)
    ensures b <==> exists i :: OccursAt(text, pat, i)
    decreases |text|
  {
    if |text| < |pat| then false
    else if text[..|pat|] == pat then (assert OccursAt(text, pat, 0); true)
    else
      var rest := Contains(text[1..], pat);
      ShiftOccurrence(text, pat);
      rest
  }

  /** An occurrence in `text[1..]` is an occurrence in `text` one position later, and
      every occurrence in `text` other than at 0 arises that way. */
  lemma ShiftOccurrence(text: string, pat: string)
    requires |text| >= |pat| && text[..|pat|] != pat
    ensures (exists i :: OccursAt(text, pat, i)) <==> (exists j :: OccursAt(text[1..], pat, j))
  {
    forall j | OccursAt(text[1..], pat, j)
      ensures OccursAt(text, pat, j + 1)
    {
      assert text[1..][j..j + |pat|] == text[j + 1..j + 1 + |pat|];
    }
    forall i | OccursAt(text, pat, i)
      ensures OccursAt(text[1..], pat, i - 1)
    {
      assert i != 0;
      assert text[1..][i - 1..i - 1 + |pat|] == text[i..i + |pat|];
    }
  }

  /** Container detection: `cgroup` is the text of /proc/1/cgroup, or None when reading it
      raised. The container preset is chosen iff the file was read and mentions "docker". */
  function InDocker(cgroup: Option<string>): (b: bool)
    ensures b <==> cgroup.Some? && exists i :: OccursAt(cgroup.value, "docker", i)
  {
    match cgroup
    case None => false
    case Some(text) => Contains(text, "docker")
  }

  /** One of the two address presets. */
  datatype Preset = Preset(
    kafkaBootstrap: string,   // address this process uses to reach Kafka
    kafkaForPinot: string,    // address Pinot's own ingestion uses to reach Kafka
    pinotController: string,
    pinotBroker: string)

  function PresetFor(docker: bool): (p: Preset)
    ensures p.kafkaForPinot == "kafka:9092"
    ensures docker ==> p.kafkaBootstrap == p.kafkaForPinot
    ensures !docker ==> p.kafkaBootstrap != p.kafkaForPinot
  {
    if docker then
      Preset("kafka:9092", "kafka:9092", "http://pinot-controller:9000", "http://pinot-broker:8099")
    else
      Preset("localhost:29092", "kafka:9092", "http://localhost:9000", "http://localhost:8099")
  }

  /** The resolved settings of the Pinot consumer. */
  datatype Settings = Settings(
    kafkaBootstrap: string,
    kafkaTopic: string,
    kafkaGroupId: string,
    kafkaOffsetReset: string,
    controllerUrl: string,
    brokerUrl: string,
    table: string,
    kafkaConnectUrl: string)

  /** `os.environ.get(key, default)`: a variable that is set wins, even when empty. */
  function Getenv(env: map<string, string>, key: string, default: string): (v: string)
    ensures key in env ==> v == env[key]
    ensures key !in env ==> v == default
  {
    if key in env then env[key] else default
  }

  /** The settings computed at import time from the cgroup text and the environment. */
  function Resolve(cgroup: Option<string>, env: map<string, string>): (s: Settings)
    ensures "KAFKA_BOOTSTRAP_SERVERS" in env ==> s.kafkaBootstrap == env["KAFKA_BOOTSTRAP_SERVERS"]
    ensures "KAFKA_BOOTSTRAP_SERVERS" !in env ==> s.kafkaBootstrap == PresetFor(InDocker(cgroup)).kafkaBootstrap
    ensures "KAFKA_TOPIC" in env ==> s.kafkaTopic == env["KAFKA_TOPIC"]
    ensures "KAFKA_TOPIC" !in env ==> s.kafkaTopic == "vendas-tempo-real"
    ensures "KAFKA_GROUP_ID" in env ==> s.kafkaGroupId == env["KAFKA_GROUP_ID"]
    ensures "KAFKA_GROUP_ID" !in env ==> s.kafkaGroupId == "grupo-consumidor-pinot"
    ensures "KAFKA_AUTO_OFFSET_RESET" in env ==> s.kafkaOffsetReset == env["KAFKA_AUTO_OFFSET_RESET"]
    ensures "KAFKA_AUTO_OFFSET_RESET" !in env ==> s.kafkaOffsetReset == "earliest"
    ensures "PINOT_CONTROLLER_URL" in env ==> s.controllerUrl == env["PINOT_CONTROLLER_URL"]
    ensures "PINOT_CONTROLLER_URL" !in env ==> s.controllerUrl == PresetFor(InDocker(cgroup)).pinotController
    ensures "PINOT_BROKER_URL" in env ==> s.brokerUrl == env["PINOT_BROKER_URL"]
    ensures "PINOT_BROKER_URL" !in env ==> s.brokerUrl == PresetFor(InDocker(cgroup)).pinotBroker
    ensures "PINOT_TABLE" in env ==> s.table == env["PINOT_TABLE"]
    ensures "PINOT_TABLE" !in env ==> s.table == "vendas"
    ensures "KAFKA_CONNECT_URL" in env ==> s.kafkaConnectUrl == env["KAFKA_CONNECT_URL"]
    ensures "KAFKA_CONNECT_URL" !in env ==> s.kafkaConnectUrl == "kafka:9092"
  {
    var preset := PresetFor(InDocker(cgroup));
    Settings(
      Getenv(env, "KAFKA_BOOTSTRAP_SERVERS", preset.kafkaBootstrap),
      Getenv(env, "KAFKA_TOPIC", "vendas-tempo-real"),
      Getenv(env, "KAFKA_GROUP_ID", "grupo-consumidor-pinot"),
      Getenv(env, "KAFKA_AUTO_OFFSET_RESET", "earliest"),
      Getenv(env, "PINOT_CONTROLLER_URL", preset.pinotController),
      Getenv(env, "PINOT_BROKER_URL", preset.pinotBroker),
      Getenv(env, "PINOT_TABLE", "vendas"),
      Getenv(env, "KAFKA_CONNECT_URL", preset.kafkaForPinot))
  }

  /** The environment variables whose defaults come from the detected preset. */
  const PresetKeys: set<string> :=
    {"KAFKA_BOOTSTRAP_SERVERS", "PINOT_CONTROLLER_URL", "PINOT_BROKER_URL", "KAFKA_CONNECT_URL"}

  /** Once every preset-backed variable is set, container detection no longer matters:
      the settings are the same whatever the cgroup file says. */
  lemma OverridesMakeDetectionIrrelevant(cg1: Option<string>, cg2: Option<string>, env: map<string, string>)
    requires PresetKeys <= env.Keys
    ensures Resolve(cg1, env) == Resolve(cg2, env)
  {
    assert "KAFKA_BOOTSTRAP_SERVERS" in PresetKeys;
    assert "PINOT_CONTROLLER_URL" in PresetKeys;
    assert "PINOT_BROKER_URL" in PresetKeys;
    assert "KAFKA_CONNECT_URL" in PresetKeys;
  }

  /** The address Pinot uses to reach Kafka differs from the consumer's own bootstrap
      address exactly when running on the host with neither variable set. */
  lemma HostPresetSplitsKafkaAddresses(cgroup: Option<string>, env: map<string, string>)
    requires "KAFKA_BOOTSTRAP_SERVERS" !in env && "KAFKA_CONNECT_URL" !in env
    ensures var s := Resolve(cgroup, env);
      s.kafkaBootstrap != s.kafkaConnectUrl <==> !InDocker(cgroup)
  {
  }
}

=== FILE: http.dfy ===
/** The HTTP exchanges with the Pinot controller and broker, as data. The store is given
    as a script: the responses it gives, in order, to the requests of the whole run. A step
    that starts at position `at` of the script receives `At(script, at + k)` for its k-th
    request and reports the requests it issued; the next step starts `|issued|` further
    on. Past the end of the script every request raises, as it does once the store stops
    answering. */
module Http {
  import opened Wrappers

  datatype Verb = GET | POST | DELETE

  /** The JSON document sent with a request. The two creation documents are given by
      their parameters: `SchemaJson(t)` is the document of `PinotResources.SalesSchema(t)`
      and `TableJson(t, topic, brokers)` that of `PinotResources.SalesTable(t, topic, brokers)`. */
  datatype Payload =
    | NoPayload
    | SchemaJson(schemaTable: string)
    | TableJson(table: string, topic: string, brokerList: string)
    | SqlJson(sql: string)

  datatype Request = Request(verb: Verb, url: string, payload: Payload)

  /** The members of a decoded response body that the controller code reads:
      the JSON array returned by GET /schemas, the "tables" member returned by GET /tables,
      and the "exceptions" member and the first cell of each `resultTable.rows` entry of a
      query response. A member the body lacks is None. */
  datatype Body = Body(
    names: seq<string>,
    tables: Option<seq<string>>,
    exceptions: Option<seq<string>>,
    rows: Option<seq<int>>)

  /** A response, or a `RequestException` (connection refused, timeout, ...). */
  datatype Response = Raised | Answered(status: int, body: Body)

  /** A 2xx status. */
  predicate Success(r: Response)
  {
    r.Answered? && 200 <= r.status < 300
  }

  /** Exactly status 200, the only status the creation and query code accepts. */
  predicate Ok(r: Response)
  {
    r.Answered? && r.status == 200
  }

  type Script = seq<Response>

  /** The response to the request at position `i` of the run. */
  function At(script: Script, i: nat): Response
  {
    if i < |script| then script[i] else Raised
  }

  /** The response to the k-th request of a step that starts at position `at`. */
  function Answer(script: Script, at: nat, k: nat): Response
  {
    At(script, at + k)
  }

  predicate IsDelete(r: Request)
  {
    r.verb == DELETE
  }

  /** A POST that creates a resource (queries are POSTs too, but read-only). */
  predicate IsCreate(r: Request)
  {
    r.verb == POST && (r.payload.SchemaJson? || r.payload.TableJson?)
  }

  function Deletes(rs: seq<Request>): nat
  {
    if |rs| == 0 then 0 else (if IsDelete(rs[0]) then 1 else 0) + Deletes(rs[1..])
  }

  function Creates(rs: seq<Request>): nat
  {
    if |rs| == 0 then 0 else (if IsCreate(rs[0]) then 1 else 0) + Creates(rs[1..])
  }

  lemma {:induction false} CountsConcat(a: seq<Request>, b: seq<Request>)
    ensures Deletes(a + b) == Deletes(a) + Deletes(b)
    ensures Creates(a + b) == Creates(a) + Creates(b)
  {
    if |a| > 0 {
      CountsConcat(a[1..], b);
      assert (a + b)[1..] == a[1..] + b;
    } else {
      assert a + b == b;
    }
  }
}

=== FILE: json.dfy ===
/** JSON documents as `json.loads` returns them and `json.dumps` writes them: the
    messages the producer sends and the consumers decode. */
module JsonValues {

  /** A decoded JSON document. Numbers are exact rationals; the values that decide the
      modelled behaviour only need their sign. */
  datatype Json =
    | JNull
    | JBool(b: bool)
    | JNumber(n: real)
    | JString(s: string)
    | JArray(items: seq<Json>)
    | JObject(members: map<string, Json>)
}

=== FILE: kafka_consumer.dfy ===
/** The plain sales consumer: it reads the sales topic in its own consumer group, decodes
    each message as JSON, hands it to `processar_mensagem`, and counts the messages that
    were processed without an exception. */
module KafkaConsumer {
  import opened Wrappers
  import opened Polling
  import opened JsonValues
  import Progress
  import Environment

  /** The consumer's settings, each read from the environment at import time. */
  datatype Settings = Settings(bootstrap: string, topic: string, groupId: string, offsetReset: string)

  function Resolve(env: map<string, string>): (s: Settings)
    ensures "KAFKA_BOOTSTRAP_SERVERS" !in env ==> s.bootstrap == "localhost:29092"
    ensures "KAFKA_TOPIC" !in env ==> s.topic == "vendas-tempo-real"
    ensures "KAFKA_GROUP_ID" !in env ==> s.groupId == "grupo-consumidor-vendas"
    ensures "KAFKA_AUTO_OFFSET_RESET" !in env ==> s.offsetReset == "earliest"
    ensures "KAFKA_BOOTSTRAP_SERVERS" in env ==> s.bootstrap == env["KAFKA_BOOTSTRAP_SERVERS"]
    ensures "KAFKA_TOPIC" in env ==> s.topic == env["KAFKA_TOPIC"]
    ensures "KAFKA_GROUP_ID" in env ==> s.groupId == env["KAFKA_GROUP_ID"]
    ensures "KAFKA_AUTO_OFFSET_RESET" in env ==> s.offsetReset == env["KAFKA_AUTO_OFFSET_RESET"]
  {
    Settings(
      Environment.Getenv(env, "KAFKA_BOOTSTRAP_SERVERS", "localhost:29092"),
      Environment.Getenv(env, "KAFKA_TOPIC", "vendas-tempo-real"),
      Environment.Getenv(env, "KAFKA_GROUP_ID", "grupo-consumidor-vendas"),
      Environment.Getenv(env, "KAFKA_AUTO_OFFSET_RESET", "earliest"))
  }

  /** The consumer `criar_consumidor` builds from the settings. */
  function Consumer(s: Settings): (c: ConsumerConfig)
    ensures c.bootstrap == s.bootstrap && c.groupId == s.groupId && c.offsetReset == s.offsetReset
    ensures c.autoCommit
  {
    ConsumerFor(s.bootstrap, s.groupId, s.offsetReset)
  }

  /** With no group configured, this consumer and the Pinot consumer sit in different
      consumer groups, so each of them receives every message of the topic; with no
      topic configured they read the same topic. */
  lemma SeparateGroupsByDefault(cgroup: Option<string>, env: map<string, string>)
    requires "KAFKA_GROUP_ID" !in env
    ensures Consumer(Resolve(env)).groupId != Environment.Resolve(cgroup, env).kafkaGroupId
    ensures "KAFKA_TOPIC" !in env ==> Resolve(env).topic == Environment.Resolve(cgroup, env).kafkaTopic
  {
  }

  /** What `processar_mensagem` does with a decoded value: it returns True, having logged
      a warning or not, or it raises. */
  datatype Processed = Returned(warned: bool) | Raised

  /** `msg_value.get('valor_total', 0)`, for a value that is a JSON object. */
  function Amount(members: map<string, Json>): Json
  {
    if "valor_total" in members then members["valor_total"] else JNumber(0.0)
  }

  /** `processar_mensagem`. Only a JSON object has `.get`; the amount must format with
      `:.2f`, which numbers and booleans do and null, strings, arrays and objects do not;
      then `valor <= 0` warns, a boolean comparing as 0 or 1. */
  function Process(v: Json): (o: Processed)
    ensures o.Returned? <==>
      v.JObject? && ("valor_total" in v.members ==>
                       v.members["valor_total"].JNumber? || v.members["valor_total"].JBool?)
    ensures o.Returned? ==>
      (o.warned <==> "valor_total" !in v.members
                     || v.members["valor_total"] == JBool(false)
                     || (v.members["valor_total"].JNumber? && v.members["valor_total"].n <= 0.0))
  {
    match v
    case JObject(members) =>
      (match Amount(members)
       case JNumber(n) => Returned(n <= 0.0)
       case JBool(b) => Returned(!b)
       case _ => Raised)
    case _ => Raised
  }

  /** The messages the loop counts: a value that decoded and that `processar_mensagem`
      returned from. Undecodable values and raised exceptions are logged and skipped. */
  predicate Counted(p: Poll)
  {
    p.Delivered? && p.payload.Some? && Process(p.payload.value).Returned?
  }

  /** The state of the loop: the message counter, the progress lines, and the amounts
      that drew a warning, in order. */
  datatype Loop = Loop(counter: nat, progress: seq<nat>, warnings: seq<Json>)

  /** One iteration of `while running`. */
  function Iterate(st: Loop, p: Poll): (r: Loop)
    ensures r.counter == st.counter + (if Counted(p) then 1 else 0)
    ensures !Counted(p) ==> r == st
    ensures Counted(p) && Process(p.payload.value).warned ==>
      r.warnings == st.warnings + [Amount(p.payload.value.members)]
  {
    if p.Delivered? && p.payload.Some? then
      match Process(p.payload.value)
      case Raised => st
      case Returned(warned) =>
        var (counter, progress) := Progress.Bump(st.counter, st.progress);
        var warnings := if warned then st.warnings + [Amount(p.payload.value.members)] else st.warnings;
        Loop(counter, progress, warnings)
    else st
  }

  /** An amount `valor <= 0` holds for. */
  predicate NonPositive(j: Json)
  {
    (j.JNumber? && j.n <= 0.0) || j == JBool(false)
  }

  /** The number of counted messages among the polls. */
  function CountedAmong(ps: seq<Poll>): nat
  {
    if |ps| == 0 then 0 else (if Counted(ps[0]) then 1 else 0) + CountedAmong(ps[1..])
  }

  /** Over any iterations the counter grows by exactly the number of counted messages,
      progress lines stay exactly the multiples of 10 reached, and every warning is for an
      amount that is at most 0. */
  lemma {:induction false} IterationsCount(st: Loop, ps: seq<Poll>)
    requires st.progress == Progress.Milestones(st.counter)
    decreases |ps|
    ensures var r := Fold(Iterate, st, ps);
      && r.counter == st.counter + CountedAmong(ps)
      && r.progress == Progress.Milestones(r.counter)
      && st.warnings <= r.warnings
      && |r.warnings| - |st.warnings| <= CountedAmong(ps)
      && forall i :: |st.warnings| <= i < |r.warnings| ==> NonPositive(r.warnings[i])
  {
    if |ps| > 0 {
      if Counted(ps[0]) {
        Progress.BumpKeepsMilestones(st.counter, st.progress);
      }
      var next := Iterate(st, ps[0]);
      IterationsCount(next, ps[1..]);
      var r := Fold(Iterate, next, ps[1..]);
      forall i | |st.warnings| <= i < |r.warnings|
        ensures NonPositive(r.warnings[i])
      {
        if i >= |next.warnings| {
        } else {
          assert r.warnings[i] == next.warnings[i];
          assert next.warnings[i] == Amount(ps[0].payload.value.members);
        }
      }
    }
  }

  /** `main`: the loop from a zero counter, closed iff a signal or crash stopped it. */
  function Main(evs: seq<Event<Poll>>): (r: Outcome<Loop>)
    ensures r.state.counter == CountedAmong(Handled(evs))
    ensures r.state.progress == Progress.Milestones(r.state.counter)
    ensures r.closed == Interrupted(evs) && r.running == !Interrupted(evs)
  {
    var st := Loop(0, [], []);
    DriveFolds(Iterate, st, evs);
    IterationsCount(st, Handled(evs));
    Drive(Iterate, st, evs)
  }
}

=== FILE: pinot_consumer.dfy ===
/** The Pinot consumer's `main`: provisioning, then, only when every provisioning step
    succeeded, the steady-state loop that polls Kafka, counts every message, and runs the
    periodic count-query probe when more than 30 seconds have passed since the last one,
    until a signal or a `KafkaException` ends it and the consumer is closed. */
module PinotConsumer {
  import opened Wrappers
  import opened Http
  import opened Polling
  import Progress
  import Provisioning

  type Settings = Provisioning.Settings

  /** The consumer `criar_consumidor` builds from the settings. */
  function Consumer(cfg: Settings): (c: ConsumerConfig)
    ensures c.bootstrap == cfg.kafkaBootstrap && c.groupId == cfg.kafkaGroupId
    ensures c.offsetReset == cfg.kafkaOffsetReset && c.autoCommit
  {
    ConsumerFor(cfg.kafkaBootstrap, cfg.kafkaGroupId, cfg.kafkaOffsetReset)
  }

  /** Seconds that must have passed, strictly, since the last probe for the next one. */
  const ProbeInterval: real := 30.0

  /** The inputs of one iteration: what the poll returned, the clock reading when the
      cadence is checked, and the clock reading that restarts the timer after a probe.
      Readings are `time.time()` seconds, fractions included. */
  datatype Tick = Tick(poll: Poll, now: real, probedAt: real)

  /** The state of the steady-state loop. `at` is the position of the next probe request
      in the store's script; `sent` the probe requests so far, `probes` their verdicts. */
  datatype Loop = Loop(
    counter: nat,
    lastProbe: real,
    progress: seq<nat>,
    probes: seq<bool>,
    sent: seq<Request>,
    at: nat)

  /** The loop as entered: nothing counted, the timer started at `clock`. */
  function Start(clock: real, at: nat): (st: Loop)
    ensures st.counter == 0 && st.progress == Progress.Milestones(0)
    ensures st.lastProbe == clock && st.at == at && st.sent == [] && st.probes == []
  {
    Loop(0, clock, [], [], [], at)
  }

  /** The periodic probe never mutates the store: it issues only count and sample queries. */
  lemma ProbeQueryReadOnly(cfg: Settings, sc: Script, at: nat)
    ensures var p := Provisioning.ProbeQuery(cfg, sc, at);
      Deletes(p.sent) == 0 && Creates(p.sent) == 0
  {
    Provisioning.Single(Provisioning.CountQuery(cfg));
    Provisioning.Pair(Provisioning.CountQuery(cfg), Provisioning.DetailQuery(cfg));
  }

  /** One iteration of `while running`: after the poll, probe iff more than 30 seconds
      passed since the last probe, whatever the poll returned; then count the message when
      it is one. */
  function Iterate(cfg: Settings, sc: Script, st: Loop, t: Tick): (r: Loop)
    ensures t.now - st.lastProbe > ProbeInterval ==>
      r.lastProbe == t.probedAt
      && r.probes == st.probes + [Provisioning.ProbeQuery(cfg, sc, st.at).ok]
    ensures t.now - st.lastProbe <= ProbeInterval ==>
      r.lastProbe == st.lastProbe && r.probes == st.probes && r.sent == st.sent && r.at == st.at
    ensures r.counter == st.counter + (if t.poll.Delivered? then 1 else 0)
    ensures r.progress == (if t.poll.Delivered? && r.counter % Progress.Every == 0
                           then st.progress + [r.counter] else st.progress)
    ensures r.at == st.at + |r.sent| - |st.sent| && st.sent <= r.sent
  {
    var probed :=
      if t.now - st.lastProbe > ProbeInterval then
        var p := Provisioning.ProbeQuery(cfg, sc, st.at);
        st.(lastProbe := t.probedAt, probes := st.probes + [p.ok],
            sent := st.sent + p.sent, at := st.at + |p.sent|)
      else st;
    if t.poll.Delivered? then
      var (counter, progress) := Progress.Bump(probed.counter, probed.progress);
      probed.(counter := counter, progress := progress)
    else probed
  }

  /** `Iterate` as the loop body `Drive` runs. */
  function Body(cfg: Settings, sc: Script): (Loop, Tick) -> Loop
  {
    (st: Loop, t: Tick) => Iterate(cfg, sc, st, t)
  }

  /** The number of messages among the polls: every message that is neither None nor an
      error counts, whatever its payload. */
  function Messages(ts: seq<Tick>): nat
  {
    if |ts| == 0 then 0 else (if ts[0].poll.Delivered? then 1 else 0) + Messages(ts[1..])
  }

  /** Over any iterations the counter grows by exactly the number of messages, progress
      lines stay exactly the multiples of 10 reached, and no DELETE or CREATE is sent:
      a failed probe never leads to a repair. */
  lemma {:induction false} IterationsCount(cfg: Settings, sc: Script, st: Loop, ts: seq<Tick>)
    requires st.progress == Progress.Milestones(st.counter)
    decreases |ts|
    ensures var r := Fold(Body(cfg, sc), st, ts);
      && r.counter == st.counter + Messages(ts)
      && r.progress == Progress.Milestones(r.counter)
      && Deletes(r.sent) == Deletes(st.sent) && Creates(r.sent) == Creates(st.sent)
  {
    if |ts| > 0 {
      var next := Iterate(cfg, sc, st, ts[0]);
      assert Body(cfg, sc)(st, ts[0]) == next;
      if ts[0].poll.Delivered? {
        Progress.BumpKeepsMilestones(st.counter, st.progress);
      }
      if ts[0].now - st.lastProbe > ProbeInterval {
        ProbeQueryReadOnly(cfg, sc, st.at);
        CountsConcat(st.sent, Provisioning.ProbeQuery(cfg, sc, st.at).sent);
      }
      IterationsCount(cfg, sc, next, ts[1..]);
    }
  }

  /** A whole run of the Pinot consumer: provisioning, then the loop if it was created. */
  datatype PinotRun = PinotRun(
    stage: Provisioning.Stage,
    sent: seq<Request>,                // every request to the store, provisioning's then the probes'
    consumer: Option<Outcome<Loop>>)   // the loop, present iff the Kafka consumer was created

  /** `main`. The script is the store's responses to the whole run, the clock `start` is
      read as the loop is entered, and `evs` is what happens to the loop. */
  function PinotMain(cfg: Settings, kafka: Provisioning.KafkaMetadata, sc: Script, start: real,
                     evs: seq<Event<Tick>>): (r: PinotRun)
    ensures r.stage == Provisioning.Provision(cfg, kafka, sc, 0).stage
    ensures r.consumer.Some? <==> r.stage == Provisioning.Ready
  {
    var p := Provisioning.Provision(cfg, kafka, sc, 0);
    if p.stage != Provisioning.Ready then PinotRun(p.stage, p.sent, None)
    else
      var loop := Drive(Body(cfg, sc), Start(start, |p.sent|), evs);
      PinotRun(p.stage, p.sent + loop.state.sent, Some(loop))
  }

  /** Over a whole run at most one DELETE and at most three CREATEs reach the store, and
      the consumer, when it was created, ends with exactly as many messages counted as it
      polled before a signal or crash, progress lines at the multiples of 10, and is
      closed iff a signal or crash stopped it. */
  lemma PinotMainProperties(cfg: Settings, kafka: Provisioning.KafkaMetadata, sc: Script, start: real,
                            evs: seq<Event<Tick>>)
    ensures var r := PinotMain(cfg, kafka, sc, start, evs);
      && Deletes(r.sent) <= 1 && Creates(r.sent) <= 3
      && (r.consumer.Some? ==>
            && r.consumer.value.state.counter == Messages(Handled(evs))
            && r.consumer.value.state.progress == Progress.Milestones(r.consumer.value.state.counter)
            && r.consumer.value.closed == Interrupted(evs)
            && r.consumer.value.running == !Interrupted(evs))
  {
    var p := Provisioning.Provision(cfg, kafka, sc, 0);
    Provisioning.ProvisionMutationBound(cfg, kafka, sc, 0);
    if p.stage == Provisioning.Ready {
      var st := Start(start, |p.sent|);
      DriveFolds(Body(cfg, sc), st, evs);
      IterationsCount(cfg, sc, st, Handled(evs));
      CountsConcat(p.sent, Drive(Body(cfg, sc), st, evs).state.sent);
    }
  }
}

=== FILE: pinot_resources.dfy ===
/** The schema and the REALTIME table configuration the Pinot consumer declares, as
    structured values (the JSON documents POSTed to the controller). */
module PinotResources {

  datatype DataType = STRING | INT | LONG | DOUBLE

  datatype FieldSpec = FieldSpec(name: string, dataType: DataType)

  datatype DateTimeSpec = DateTimeSpec(name: string, dataType: DataType, format: string, granularity: string)

  datatype Schema = Schema(
    schemaName: string,
    dimensions: seq<FieldSpec>,
    metrics: seq<FieldSpec>,
    dateTimes: seq<DateTimeSpec>)

  datatype SegmentsConfig = SegmentsConfig(
    timeColumnName: string,
    timeType: string,
    replication: string,
    schemaName: string)

  datatype StreamConfig = StreamConfig(
    streamType: string,
    consumerType: string,
    topicName: string,
    decoderClass: string,
    consumerFactoryClass: string,
    brokerList: string,
    flushThresholdTime: string,
    flushThresholdSize: string,
    offsetReset: string)

  datatype TableConfig = TableConfig(
    tableName: string,
    tableType: string,
    segments: SegmentsConfig,
    loadMode: string,
    stream: StreamConfig)

  /** The names of the dimension, metric and date-time fields, in declaration order. */
  function FieldNames(s: Schema): (names: seq<string>)
    ensures |names| == |s.dimensions| + |s.metrics| + |s.dateTimes|
    ensures forall i :: 0 <= i < |s.dimensions| ==> names[i] == s.dimensions[i].name
  {
    seq(|s.dimensions|, i requires 0 <= i < |s.dimensions| => s.dimensions[i].name)
    + seq(|s.metrics|, i requires 0 <= i < |s.metrics| => s.metrics[i].name)
    + seq(|s.dateTimes|, i requires 0 <= i < |s.dateTimes| => s.dateTimes[i].name)
  }

  predicate Distinct(xs: seq<string>)
  {
    forall i, j :: 0 <= i < j < |xs| ==> xs[i] != xs[j]
  }

  /** The fifteen columns of a sale, in the order the schema declares them. */
  const SaleColumns: seq<string> := [
    "id_venda", "id_cliente", "nome_cliente", "email_cliente", "produto", "categoria",
    "forma_pagamento", "loja", "cidade", "estado",
    "preco", "quantidade", "valor_total",
    "timestamp", "data_hora"]

  /** The sales schema, named after the table. */
  function SalesSchema(table: string): (s: Schema)
    ensures s.schemaName == table
  {
    Schema(
      table,
      [ FieldSpec("id_venda", STRING), FieldSpec("id_cliente", STRING),
        FieldSpec("nome_cliente", STRING), FieldSpec("email_cliente", STRING),
        FieldSpec("produto", STRING), FieldSpec("categoria", STRING),
        FieldSpec("forma_pagamento", STRING), FieldSpec("loja", STRING),
        FieldSpec("cidade", STRING), FieldSpec("estado", STRING) ],
      [ FieldSpec("preco", DOUBLE), FieldSpec("quantidade", INT), FieldSpec("valor_total", DOUBLE) ],
      [ DateTimeSpec("timestamp", LONG, "1:MILLISECONDS:EPOCH", "1:MILLISECONDS"),
        DateTimeSpec("data_hora", STRING, "1:DAYS:SIMPLE_DATE_FORMAT:yyyy-MM-dd'T'HH:mm:ss", "1:DAYS") ])
  }

  /** The REALTIME table fed by `topic`; `brokerList` is the Kafka address as seen from
      Pinot's own containers. The document's two empty members, `"tenants": {}` and
      `"metadata": {"customConfigs": {}}`, carry nothing and are omitted. */
  function SalesTable(table: string, topic: string, brokerList: string): (t: TableConfig)
    ensures t.tableName == table && t.segments.schemaName == table
    ensures t.tableType == "REALTIME"
    ensures t.stream.topicName == topic && t.stream.brokerList == brokerList
  {
    TableConfig(
      table,
      "REALTIME",
      SegmentsConfig("timestamp", "MILLISECONDS", "1", table),
      "MMAP",
      StreamConfig(
        "kafka",
        "lowlevel",
        topic,
        "org.apache.pinot.plugin.stream.kafka.KafkaJSONMessageDecoder",
        "org.apache.pinot.plugin.stream.kafka20.KafkaConsumerFactory",
        brokerList,
        "3600000",
        "500000",
        "smallest"))
  }

  /** The schema declares exactly the sale columns, dimensions first, then metrics, then
      date-time fields. */
  lemma SalesSchemaColumns(table: string)
    ensures FieldNames(SalesSchema(table)) == SaleColumns
  {
  }

  /** The schema's columns are pairwise distinct, so the schema has exactly fifteen fields.
      Two columns differ in length or, where the lengths agree, in their first letter. */
  lemma SaleColumnsDistinct()
    ensures Distinct(SaleColumns)
    ensures |set c | c in SaleColumns| == 15
  {
    var cols := SaleColumns;
    var sig := seq(|cols|, i requires 0 <= i < |cols| => (|cols[i]|, cols[i][0]));
    assert sig == [(8, 'i'), (10, 'i'), (12, 'n'), (13, 'e'), (7, 'p'), (9, 'c'), (15, 'f'), (4, 'l'),
                   (6, 'c'), (6, 'e'), (5, 'p'), (10, 'q'), (11, 'v'), (9, 't'), (9, 'd')];
    forall i, j | 0 <= i < j < |cols| ensures cols[i] != cols[j] {
      assert sig[i] != sig[j];
    }
    DistinctCardinality(cols);
  }

  /** A duplicate-free sequence has as many elements as its set. */
  lemma {:induction false} DistinctCardinality(xs: seq<string>)
    requires Distinct(xs)
    ensures |set c | c in xs| == |xs|
  {
    if |xs| > 0 {
      var tail := xs[1..];
      assert Distinct(tail) by {
        forall i, j | 0 <= i < j < |tail| ensures tail[i] != tail[j] {
          assert tail[i] == xs[i + 1] && tail[j] == xs[j + 1];
        }
      }
      DistinctCardinality(tail);
      assert (set c | c in xs) == (set c | c in tail) + {xs[0]};
      assert xs[0] !in (set c | c in tail);
    }
  }

  /** The table's schema is the declared one and its time column is the schema's epoch
      millisecond date-time field. */
  lemma TableMatchesSchema(table: string, topic: string, brokerList: string)
    ensures var s := SalesSchema(table);
      var t := SalesTable(table, topic, brokerList);
      && t.segments.schemaName == s.schemaName == t.tableName
      && exists k :: 0 <= k < |s.dateTimes|
           && s.dateTimes[k].name == t.segments.timeColumnName
           && s.dateTimes[k].format == "1:" + t.segments.timeType + ":EPOCH"
  {
    var s := SalesSchema(table);
    assert s.dateTimes[0].name == "timestamp";
  }
}

=== FILE: polling.dfy ===
/** What the Kafka consumer loops see: the result of each `poll(timeout=1.0)`, a shutdown
    signal, or a `KafkaException` escaping the loop. */
module Polling {
  import opened Wrappers
  import opened JsonValues

  /** The configuration both consumers build in `criar_consumidor`: offsets are committed
      automatically every 5 seconds, a member may go 5 minutes between polls and its
      session times out after 30 seconds. */
  datatype ConsumerConfig = ConsumerConfig(
    bootstrap: string,
    groupId: string,
    offsetReset: string,
    autoCommit: bool,
    autoCommitIntervalMs: nat,
    maxPollIntervalMs: nat,
    sessionTimeoutMs: nat)

  function ConsumerFor(bootstrap: string, groupId: string, offsetReset: string): (c: ConsumerConfig)
    ensures c.bootstrap == bootstrap && c.groupId == groupId && c.offsetReset == offsetReset
    ensures c.autoCommit && c.autoCommitIntervalMs < c.sessionTimeoutMs < c.maxPollIntervalMs
  {
    ConsumerConfig(bootstrap, groupId, offsetReset, true, 5000, 300000, 30000)
  }

  /** The error codes the loops tell apart; every other code is `OtherError`. */
  datatype ErrorCode = PartitionEof | Transport | OtherError

  /** The result of one poll: nothing within the timeout, a message carrying an error, or a
      message whose value decodes (UTF-8, then JSON) to `payload`, None when decoding fails. */
  datatype Poll = Nothing | Errored(code: ErrorCode) | Delivered(payload: Option<Json>)

  /** One event of a loop run. `Signal` is SIGINT/SIGTERM: the handler clears the running
      flag, which the loop sees at its next check. `Crash` is a `KafkaException` raised
      out of the loop body. `T` is what one iteration consumes. */
  datatype Event<T> = Polled(item: T) | Signal | Crash

  /** The loop's input contains a Signal or a Crash. */
  predicate Interrupted<T>(evs: seq<Event<T>>)
  {
    exists i :: 0 <= i < |evs| && !evs[i].Polled?
  }

  /** An iteration does not change whether a Signal or Crash lies ahead: after a Polled
      event the rest of the run is interrupted iff the whole run is. */
  lemma {:induction false} InterruptedAfterPoll<T>(evs: seq<Event<T>>)
    requires |evs| > 0 && evs[0].Polled?
    ensures Interrupted(evs) <==> Interrupted(evs[1..])
  {
    if Interrupted(evs) {
      var i :| 0 <= i < |evs| && !evs[i].Polled?;
      assert i > 0 && !evs[1..][i - 1].Polled?;
    }
    if Interrupted(evs[1..]) {
      var i :| 0 <= i < |evs[1..]| && !evs[1..][i].Polled?;
      assert !evs[i + 1].Polled?;
    }
  }

  /** The iterations a run performs: the items before the first Signal or Crash. */
  function Handled<T>(evs: seq<Event<T>>): (items: seq<T>)
    ensures |items| <= |evs|
    ensures forall i :: 0 <= i < |items| ==> evs[i] == Polled(items[i])
    ensures !Interrupted(evs) ==> |items| == |evs|
    ensures Interrupted(evs) ==> |items| < |evs| && !evs[|items|].Polled?
  {
    if |evs| == 0 || !evs[0].Polled? then []
    else
      var rest := Handled(evs[1..]);
      InterruptedAfterPoll(evs);
      [evs[0].item] + rest
  }

  /** How a loop run ends: the state it reached, whether it is still running (the events
      ran out first), and whether the consumer was closed by the `finally` block. */
  datatype Outcome<S> = Outcome(state: S, running: bool, closed: bool)

  /** `while running`, driven by the events. A Polled event runs one iteration through
      `step`. A Signal clears the running flag, so the next check of the flag ends the
      loop; a Crash leaves the loop through the exception. Either way the `finally` block
      closes the consumer. */
  function Drive<S, T>(step: (S, T) -> S, s: S, evs: seq<Event<T>>): (r: Outcome<S>)
    decreases |evs|
    ensures r.closed == Interrupted(evs) && r.running == !Interrupted(evs)
  {
    if |evs| == 0 then Outcome(s, true, false)
    else match evs[0]
      case Signal => Outcome(s, false, true)
      case Crash => Outcome(s, false, true)
      case Polled(t) =>
        InterruptedAfterPoll(evs);
        Drive(step, step(s, t), evs[1..])
  }

  /** The reference: the iterations applied one after the other. */
  function Fold<S, T>(step: (S, T) -> S, s: S, items: seq<T>): S
    decreases |items|
  {
    if |items| == 0 then s else Fold(step, step(s, items[0]), items[1..])
  }

  /** A run performs exactly the iterations before the first Signal or Crash, and it
      closes the consumer iff there is one; otherwise it is still running. */
  lemma {:induction false} DriveFolds<S, T>(step: (S, T) -> S, s: S, evs: seq<Event<T>>)
    decreases |evs|
    ensures Drive(step, s, evs) == Outcome(Fold(step, s, Handled(evs)), !Interrupted(evs), Interrupted(evs))
  {
    if |evs| == 0 {
    } else if !evs[0].Polled? {
      assert Interrupted(evs);
    } else {
      DriveFolds(step, step(s, evs[0].item), evs[1..]);
      assert Handled(evs)[1..] == Handled(evs[1..]);
      InterruptedAfterPoll(evs);
    }
  }
}

=== FILE: progress.dfy ===
/** The "processed N messages so far" progress line shared by the three loops of the
    system: after the counter is incremented, a line is written when it is a multiple of 10. */
module Progress {

  const Every: nat := 10

  /** The counter values at which a progress line has been written once `count`
      items have been handled, starting from zero: 10, 20, 30, ... up to `count`. */
  function Milestones(count: nat): (ms: seq<nat>)
    ensures |ms| == count / Every
    ensures forall i :: 0 <= i < |ms| ==> ms[i] == Every * (i + 1)
  {
    seq(count / Every, i requires 0 <= i => Every * (i + 1))
  }

  /** One more item handled: the new counter, and the log with a line appended
      exactly when the new counter is a multiple of `Every`. */
  function Bump(count: nat, logged: seq<nat>): (r: (nat, seq<nat>))
    ensures r.0 == count + 1
    ensures r.0 % Every == 0 ==> r.1 == logged + [r.0]
    ensures r.0 % Every != 0 ==> r.1 == logged
  {
    var next := count + 1;
    if next % Every == 0 then (next, logged + [next]) else (next, logged)
  }

  /** Bumping keeps the log equal to the milestones of the counter. */
  lemma BumpKeepsMilestones(count: nat, logged: seq<nat>)
    requires logged == Milestones(count)
    ensures Bump(count, logged).1 == Milestones(count + 1)
  {
    var next := count + 1;
    if next % Every == 0 {
      assert next / Every == count / Every + 1;
      var ms := Milestones(next);
      assert |ms| == |logged| + 1;
      assert ms[|logged|] == next;
      assert ms == logged + [next];
    } else {
      assert next / Every == count / Every;
    }
  }
}

=== FILE: provisioning.dfy ===
/** Provisioning of the Pinot store before consumption starts: the liveness probe of the
    controller, the Kafka reachability check, check-then-create of the schema and of the
    table, the two count-query classifiers, the verify-then-repair-once step, and the
    orchestration that runs them in order. Every step takes the script of the store's
    responses and its position in it, and returns its outcome with the requests it issued. */
module Provisioning {
  import opened Wrappers
  import opened Http
  import Environment
  import PinotResources

  type Settings = Environment.Settings

  // ----- The requests -----

  /** The controller paths tried, in order, by the liveness probe. */
  const Endpoints: seq<string> := ["/health", "/", "/tables", "/schemas"]

  function HealthGet(cfg: Settings, endpoint: string): Request
  {
    Request(GET, cfg.controllerUrl + endpoint, NoPayload)
  }

  function ListSchemas(cfg: Settings): Request
  {
    Request(GET, cfg.controllerUrl + "/schemas", NoPayload)
  }

  function CreateSchema(cfg: Settings): Request
  {
    Request(POST, cfg.controllerUrl + "/schemas", SchemaJson(cfg.table))
  }

  function ListTables(cfg: Settings): Request
  {
    Request(GET, cfg.controllerUrl + "/tables", NoPayload)
  }

  /** The table is fed from the configured topic through KAFKA_CONNECT_URL, the address
      Pinot uses, not the consumer's own bootstrap address. */
  function CreateTable(cfg: Settings): Request
  {
    Request(POST, cfg.controllerUrl + "/tables",
      TableJson(cfg.table, cfg.kafkaTopic, cfg.kafkaConnectUrl))
  }

  function DropTable(cfg: Settings): Request
  {
    Request(DELETE, cfg.controllerUrl + "/tables/" + cfg.table, NoPayload)
  }

  function CountQuery(cfg: Settings): Request
  {
    Request(POST, cfg.brokerUrl + "/query/sql", SqlJson("SELECT COUNT(*) FROM " + cfg.table))
  }

  function DetailQuery(cfg: Settings): Request
  {
    Request(POST, cfg.brokerUrl + "/query/sql", SqlJson("SELECT * FROM " + cfg.table + " LIMIT 1"))
  }

  /** The documents the two creation requests carry: the schema and the table are both
      named after the configured table, the table reads the configured topic, and Pinot
      reaches Kafka through KAFKA_CONNECT_URL rather than the consumer's own address. */
  lemma CreatedDocuments(cfg: Settings)
    ensures var p := CreateSchema(cfg).payload;
      PinotResources.SalesSchema(p.schemaTable).schemaName == cfg.table
    ensures var p := CreateTable(cfg).payload;
      var t := PinotResources.SalesTable(p.table, p.topic, p.brokerList);
      && t.tableName == cfg.table && t.segments.schemaName == cfg.table
      && t.stream.topicName == cfg.kafkaTopic && t.stream.brokerList == cfg.kafkaConnectUrl
  {
  }

  /** The outcome of a step and the requests it issued, in order. */
  datatype Step = Step(ok: bool, sent: seq<Request>)

  // ----- Liveness probe -----

  /** The probe from endpoint `i` on: GET each endpoint in turn, stop at the first 2xx. */
  function ProbeFrom(cfg: Settings, sc: Script, at: nat, i: nat): (r: Step)
    requires i <= |Endpoints|
    ensures |r.sent| <= |Endpoints| - i
    ensures forall k :: 0 <= k < |r.sent| ==> r.sent[k] == HealthGet(cfg, Endpoints[i + k])
    ensures forall k :: 0 <= k < |r.sent| - 1 ==> !Success(Answer(sc, at, k))
    ensures r.ok <==> exists k :: 0 <= k < |Endpoints| - i && Success(Answer(sc, at, k))
    ensures r.ok ==> |r.sent| > 0 && Success(Answer(sc, at, |r.sent| - 1))
    ensures !r.ok ==> |r.sent| == |Endpoints| - i
    decreases |Endpoints| - i
  {
    if i == |Endpoints| then Step(false, [])
    else
      var req := HealthGet(cfg, Endpoints[i]);
      if Success(Answer(sc, at, 0)) then Step(true, [req])
      else
        var next := at + 1;
        var rest := ProbeFrom(cfg, sc, next, i + 1);
        assert forall k :: 1 <= k ==> Answer(sc, at, k) == Answer(sc, next, k - 1);
        assert forall j :: 0 <= j ==> Answer(sc, next, j) == Answer(sc, at, j + 1);
        Step(rest.ok, [req] + rest.sent)
  }

  /** The controller is up iff one of /health, /, /tables, /schemas, tried in that order,
      answers 2xx; no endpoint is tried after the first that does, and a raised request or
      another status just moves on to the next endpoint. */
  function CheckController(cfg: Settings, sc: Script, at: nat): (r: Step)
    ensures 1 <= |r.sent| <= 4
    ensures forall k :: 0 <= k < |r.sent| ==> r.sent[k] == HealthGet(cfg, Endpoints[k])
    ensures forall k :: 0 <= k < |r.sent| - 1 ==> !Success(Answer(sc, at, k))
    ensures r.ok <==> exists k :: 0 <= k < 4 && Success(Answer(sc, at, k))
    ensures r.ok ==> Success(Answer(sc, at, |r.sent| - 1))
    ensures !r.ok ==> |r.sent| == 4
  {
    ProbeFrom(cfg, sc, at, 0)
  }

  // ----- Kafka reachability -----

  /** What listing the topics of the broker gave: an exception, or the topic names. */
  datatype KafkaMetadata = Unreachable | Topics(names: set<string>)

  datatype KafkaCheck = KafkaCheck(ok: bool, topicMissingWarning: bool)

  /** Kafka is usable iff the topics could be listed; a missing topic is only a warning. */
  function CheckKafka(cfg: Settings, m: KafkaMetadata): (r: KafkaCheck)
    ensures r.ok <==> m.Topics?
    ensures r.topicMissingWarning <==> m.Topics? && cfg.kafkaTopic !in m.names
  {
    match m
    case Unreachable => KafkaCheck(false, false)
    case Topics(names) => KafkaCheck(true, cfg.kafkaTopic !in names)
  }

  // ----- Schema and table -----

  /** A listing that answered 200 and names the schema. */
  predicate SchemaListed(cfg: Settings, r: Response)
  {
    Ok(r) && cfg.table in r.body.names
  }

  /** A listing that answered 200 and whose "tables" member (empty when absent) holds
      the physical name `<table>_REALTIME`. */
  predicate TableListed(cfg: Settings, r: Response)
  {
    Ok(r) && cfg.table + "_REALTIME" in r.body.tables.GetOr([])
  }

  /** Check-then-create for the schema: list the schemas; when the listing names the
      schema, succeed without creating; otherwise (including a failed listing) POST the
      schema once and succeed iff the answer is exactly 200. */
  function EnsureSchema(cfg: Settings, sc: Script, at: nat): (r: Step)
    ensures SchemaListed(cfg, Answer(sc, at, 0)) ==> r.ok && r.sent == [ListSchemas(cfg)]
    ensures !SchemaListed(cfg, Answer(sc, at, 0)) ==>
      r.sent == [ListSchemas(cfg), CreateSchema(cfg)] && (r.ok <==> Ok(Answer(sc, at, 1)))
  {
    if SchemaListed(cfg, Answer(sc, at, 0)) then Step(true, [ListSchemas(cfg)])
    else Step(Ok(Answer(sc, at, 1)), [ListSchemas(cfg), CreateSchema(cfg)])
  }

  /** Check-then-create for the table, the same pattern on GET/POST /tables. */
  function EnsureTable(cfg: Settings, sc: Script, at: nat): (r: Step)
    ensures TableListed(cfg, Answer(sc, at, 0)) ==> r.ok && r.sent == [ListTables(cfg)]
    ensures !TableListed(cfg, Answer(sc, at, 0)) ==>
      r.sent == [ListTables(cfg), CreateTable(cfg)] && (r.ok <==> Ok(Answer(sc, at, 1)))
  {
    if TableListed(cfg, Answer(sc, at, 0)) then Step(true, [ListTables(cfg)])
    else Step(Ok(Answer(sc, at, 1)), [ListTables(cfg), CreateTable(cfg)])
  }

  // ----- Count queries -----

  predicate NoExceptions(b: Body)
  {
    b.exceptions.None? || |b.exceptions.value| == 0
  }

  /** The classifier of verify/repair and of the final check: 200 and no exceptions;
      the rows are not looked at. */
  predicate QueryAccepted(r: Response)
  {
    Ok(r) && NoExceptions(r.body)
  }

  /** The classifier of the periodic probe: additionally a non-empty `resultTable.rows`. */
  predicate ProbeHealthy(r: Response)
  {
    QueryAccepted(r) && r.body.rows.Some? && |r.body.rows.value| > 0
  }

  /** The periodic probe: one count query; when it is healthy and the count is positive,
      one more query fetches a sample row, whose outcome is only logged. */
  function ProbeQuery(cfg: Settings, sc: Script, at: nat): (r: Step)
    ensures r.ok <==> ProbeHealthy(Answer(sc, at, 0))
    ensures 1 <= |r.sent| <= 2 && r.sent[0] == CountQuery(cfg)
    ensures |r.sent| == 2 <==> r.ok && Answer(sc, at, 0).body.rows.value[0] > 0
    ensures |r.sent| == 2 ==> r.sent[1] == DetailQuery(cfg)
  {
    var count := Answer(sc, at, 0);
    if !ProbeHealthy(count) then Step(false, [CountQuery(cfg)])
    else if count.body.rows.value[0] > 0 then Step(true, [CountQuery(cfg), DetailQuery(cfg)])
    else Step(true, [CountQuery(cfg)])
  }

  /** Verify-then-repair-once: when the count query is accepted, succeed with nothing
      else issued. Otherwise DELETE the table once (a raised DELETE fails the step; its
      status is ignored) and return exactly the outcome of one EnsureTable, without
      querying again. */
  function VerifyAndRepair(cfg: Settings, sc: Script, at: nat): (r: Step)
    ensures |r.sent| >= 1 && r.sent[0] == CountQuery(cfg)
    ensures QueryAccepted(Answer(sc, at, 0)) ==> r.ok && r.sent == [CountQuery(cfg)]
    ensures !QueryAccepted(Answer(sc, at, 0)) ==> |r.sent| >= 2 && r.sent[1] == DropTable(cfg)
    ensures !QueryAccepted(Answer(sc, at, 0)) && Answer(sc, at, 1).Raised? ==> !r.ok && |r.sent| == 2
  {
    if QueryAccepted(Answer(sc, at, 0)) then Step(true, [CountQuery(cfg)])
    else if Answer(sc, at, 1).Raised? then Step(false, [CountQuery(cfg), DropTable(cfg)])
    else
      var t := EnsureTable(cfg, sc, at + 2);
      Step(t.ok, [CountQuery(cfg), DropTable(cfg)] + t.sent)
  }

  // ----- Orchestration -----

  /** How far `main` got before consuming; `Ready` means the consumer is created. */
  datatype Stage =
    | ControllerUnavailable
    | KafkaUnavailable
    | SchemaFailed
    | TableFailed
    | VerificationFailed
    | FinalQueryFailed
    | Ready

  datatype Provisioned = Provisioned(stage: Stage, sent: seq<Request>)

  /** `r` preceded by the requests of an earlier step. */
  function After(earlier: seq<Request>, r: Provisioned): Provisioned
  {
    Provisioned(r.stage, earlier + r.sent)
  }

  /** The steps of `main` before consumption, each of which must succeed for the next to
      run: liveness, Kafka, schema, table, verify/repair, and a final count query that must
      answer 200 without exceptions. */
  function Provision(cfg: Settings, kafka: KafkaMetadata, sc: Script, at: nat): (r: Provisioned)
    ensures var live := CheckController(cfg, sc, at);
      && live.sent <= r.sent
      && (r.stage == ControllerUnavailable <==> !live.ok)
      && (r.stage == KafkaUnavailable <==> live.ok && !CheckKafka(cfg, kafka).ok)
  {
    var live := CheckController(cfg, sc, at);
    if !live.ok then Provisioned(ControllerUnavailable, live.sent)
    else if !CheckKafka(cfg, kafka).ok then Provisioned(KafkaUnavailable, live.sent)
    else After(live.sent, FromSchema(cfg, sc, at + |live.sent|))
  }

  /** Stage 1 onwards: the schema. It ends Ready iff the schema step succeeds and stage 2
      onwards, run from where the schema step stopped, does. */
  function FromSchema(cfg: Settings, sc: Script, at: nat): (r: Provisioned)
    ensures r.stage !in {ControllerUnavailable, KafkaUnavailable}
    ensures var schema := EnsureSchema(cfg, sc, at);
      && schema.sent <= r.sent
      && (r.stage == SchemaFailed <==> !schema.ok)
      && (r.stage == Ready <==> schema.ok && FromTable(cfg, sc, at + |schema.sent|).stage == Ready)
  {
    var schema := EnsureSchema(cfg, sc, at);
    if !schema.ok then Provisioned(SchemaFailed, schema.sent)
    else After(schema.sent, FromTable(cfg, sc, at + |schema.sent|))
  }

  /** Stage 2 onwards: the table. It ends Ready iff the table step succeeds and stages 3
      and 4, run from where the table step stopped, do. */
  function FromTable(cfg: Settings, sc: Script, at: nat): (r: Provisioned)
    ensures r.stage in {TableFailed, VerificationFailed, FinalQueryFailed, Ready}
    ensures var table := EnsureTable(cfg, sc, at);
      && table.sent <= r.sent
      && (r.stage == TableFailed <==> !table.ok)
      && (r.stage == Ready <==> table.ok && FromVerification(cfg, sc, at + |table.sent|).stage == Ready)
  {
    var table := EnsureTable(cfg, sc, at);
    if !table.ok then Provisioned(TableFailed, table.sent)
    else After(table.sent, FromVerification(cfg, sc, at + |table.sent|))
  }

  /** Stages 3 and 4: verify/repair, then the final count query, the request right after
      it. The run ends Ready iff verify/repair succeeds and that query is accepted. */
  function FromVerification(cfg: Settings, sc: Script, at: nat): (r: Provisioned)
    ensures r.stage in {VerificationFailed, FinalQueryFailed, Ready}
    ensures var verified := VerifyAndRepair(cfg, sc, at);
      && verified.sent <= r.sent
      && (r.stage == VerificationFailed <==> !verified.ok)
      && (r.stage == Ready <==> verified.ok && QueryAccepted(Answer(sc, at, |verified.sent|)))
  {
    var verified := VerifyAndRepair(cfg, sc, at);
    if !verified.ok then Provisioned(VerificationFailed, verified.sent)
    else if QueryAccepted(Answer(sc, at, |verified.sent|)) then
      Provisioned(Ready, verified.sent + [CountQuery(cfg)])
    else Provisioned(FinalQueryFailed, verified.sent + [CountQuery(cfg)])
  }

  // ----- Properties -----

  /** The repair path in full: after a rejected count query and a DELETE that got an
      answer, the step lists the tables and, unless `<table>_REALTIME` is still listed,
      creates the table once; it succeeds iff the table is listed or the creation got a
      200, and it never queries again. */
  lemma RepairOutcome(cfg: Settings, sc: Script, at: nat)
    requires !QueryAccepted(Answer(sc, at, 0)) && Answer(sc, at, 1).Answered?
    ensures var r := VerifyAndRepair(cfg, sc, at);
      && (TableListed(cfg, Answer(sc, at, 2)) ==>
            r.ok && r.sent == [CountQuery(cfg), DropTable(cfg), ListTables(cfg)])
      && (!TableListed(cfg, Answer(sc, at, 2)) ==>
            r.sent == [CountQuery(cfg), DropTable(cfg), ListTables(cfg), CreateTable(cfg)]
            && (r.ok <==> Ok(Answer(sc, at, 3))))
      && (forall k :: 1 <= k < |r.sent| ==> r.sent[k] != CountQuery(cfg))
  {
  }

  lemma Single(a: Request)
    ensures Deletes([a]) == (if IsDelete(a) then 1 else 0)
    ensures Creates([a]) == (if IsCreate(a) then 1 else 0)
  {
    assert [a][1..] == [];
  }

  lemma Pair(a: Request, b: Request)
    ensures Deletes([a, b]) == (if IsDelete(a) then 1 else 0) + (if IsDelete(b) then 1 else 0)
    ensures Creates([a, b]) == (if IsCreate(a) then 1 else 0) + (if IsCreate(b) then 1 else 0)
  {
    assert [a, b][1..] == [b];
    Single(b);
  }

  /** Verify/repair issues at most one DELETE and creates at most one resource, the table. */
  lemma VerifyAndRepairMutations(cfg: Settings, sc: Script, at: nat)
    ensures var r := VerifyAndRepair(cfg, sc, at);
      Deletes(r.sent) <= 1 && Creates(r.sent) <= 1
  {
    var r := VerifyAndRepair(cfg, sc, at);
    if QueryAccepted(Answer(sc, at, 0)) {
      Single(CountQuery(cfg));
    } else if Answer(sc, at, 1).Raised? {
      Pair(CountQuery(cfg), DropTable(cfg));
    } else {
      var t := EnsureTable(cfg, sc, at + 2);
      Pair(CountQuery(cfg), DropTable(cfg));
      CountsConcat([CountQuery(cfg), DropTable(cfg)], t.sent);
      if TableListed(cfg, Answer(sc, at + 2, 0)) {
        Single(ListTables(cfg));
      } else {
        Pair(ListTables(cfg), CreateTable(cfg));
      }
    }
  }

  /** The liveness probe only reads. */
  lemma CheckControllerReadOnly(cfg: Settings, sc: Script, at: nat)
    ensures var r := CheckController(cfg, sc, at);
      Deletes(r.sent) == 0 && Creates(r.sent) == 0
  {
    var r := CheckController(cfg, sc, at);
    NoneMutate(r.sent);
  }

  /** A sequence of requests none of which mutates counts no mutation. */
  lemma {:induction false} NoneMutate(rs: seq<Request>)
    requires forall k :: 0 <= k < |rs| ==> !IsDelete(rs[k]) && !IsCreate(rs[k])
    ensures Deletes(rs) == 0 && Creates(rs) == 0
  {
    if |rs| > 0 {
      NoneMutate(rs[1..]);
    }
  }

  lemma EnsureSchemaMutations(cfg: Settings, sc: Script, at: nat)
    ensures var r := EnsureSchema(cfg, sc, at);
      Deletes(r.sent) == 0 && Creates(r.sent) <= 1
  {
    Single(ListSchemas(cfg));
    Pair(ListSchemas(cfg), CreateSchema(cfg));
  }

  lemma EnsureTableMutations(cfg: Settings, sc: Script, at: nat)
    ensures var r := EnsureTable(cfg, sc, at);
      Deletes(r.sent) == 0 && Creates(r.sent) <= 1
  {
    Single(ListTables(cfg));
    Pair(ListTables(cfg), CreateTable(cfg));
  }

  lemma FromVerificationMutations(cfg: Settings, sc: Script, at: nat)
    ensures var r := FromVerification(cfg, sc, at);
      Deletes(r.sent) <= 1 && Creates(r.sent) <= 1
  {
    var verified := VerifyAndRepair(cfg, sc, at);
    VerifyAndRepairMutations(cfg, sc, at);
    Single(CountQuery(cfg));
    CountsConcat(verified.sent, [CountQuery(cfg)]);
  }

  lemma FromTableMutations(cfg: Settings, sc: Script, at: nat)
    ensures var r := FromTable(cfg, sc, at);
      Deletes(r.sent) <= 1 && Creates(r.sent) <= 2
  {
    var table := EnsureTable(cfg, sc, at);
    EnsureTableMutations(cfg, sc, at);
    var rest := FromVerification(cfg, sc, at + |table.sent|);
    FromVerificationMutations(cfg, sc, at + |table.sent|);
    CountsConcat(table.sent, rest.sent);
  }

  lemma FromSchemaMutations(cfg: Settings, sc: Script, at: nat)
    ensures var r := FromSchema(cfg, sc, at);
      Deletes(r.sent) <= 1 && Creates(r.sent) <= 3
  {
    var schema := EnsureSchema(cfg, sc, at);
    EnsureSchemaMutations(cfg, sc, at);
    var rest := FromTable(cfg, sc, at + |schema.sent|);
    FromTableMutations(cfg, sc, at + |schema.sent|);
    CountsConcat(schema.sent, rest.sent);
  }

  /** A whole provisioning run deletes at most once (the single repair) and creates at
      most three resources: the schema, the table, and the table again after the repair. */
  lemma ProvisionMutationBound(cfg: Settings, kafka: KafkaMetadata, sc: Script, at: nat)
    ensures var r := Provision(cfg, kafka, sc, at);
      Deletes(r.sent) <= 1 && Creates(r.sent) <= 3
  {
    var live := CheckController(cfg, sc, at);
    CheckControllerReadOnly(cfg, sc, at);
    if live.ok && CheckKafka(cfg, kafka).ok {
      var rest := FromSchema(cfg, sc, at + |live.sent|);
      FromSchemaMutations(cfg, sc, at + |live.sent|);
      CountsConcat(live.sent, rest.sent);
      assert Provision(cfg, kafka, sc, at).sent == live.sent + rest.sent;
    } else {
      assert Provision(cfg, kafka, sc, at).sent == live.sent;
    }
  }

  /** `r`, a run from position `at`, is Ready only if its last request was a count query
      that the store accepted. */
  predicate ReadyAfterRead(cfg: Settings, sc: Script, at: nat, r: Provisioned)
  {
    r.stage == Ready ==>
      |r.sent| > 0 && r.sent[|r.sent| - 1] == CountQuery(cfg)
      && QueryAccepted(Answer(sc, at, |r.sent| - 1))
  }

  lemma ReadyAfterReadPrefixed(cfg: Settings, sc: Script, at: nat, earlier: seq<Request>, r: Provisioned)
    requires ReadyAfterRead(cfg, sc, at + |earlier|, r)
    ensures ReadyAfterRead(cfg, sc, at, After(earlier, r))
  {
    if r.stage == Ready {
      assert Answer(sc, at + |earlier|, |r.sent| - 1) == Answer(sc, at, |earlier + r.sent| - 1);
    }
  }

  lemma FromTableReadyAfterRead(cfg: Settings, sc: Script, at: nat)
    ensures ReadyAfterRead(cfg, sc, at, FromTable(cfg, sc, at))
  {
    var table := EnsureTable(cfg, sc, at);
    var next := at + |table.sent|;
    assert ReadyAfterRead(cfg, sc, next, FromVerification(cfg, sc, next));
    ReadyAfterReadPrefixed(cfg, sc, at, table.sent, FromVerification(cfg, sc, next));
  }

  lemma FromSchemaReadyAfterRead(cfg: Settings, sc: Script, at: nat)
    ensures ReadyAfterRead(cfg, sc, at, FromSchema(cfg, sc, at))
  {
    var schema := EnsureSchema(cfg, sc, at);
    var next := at + |schema.sent|;
    FromTableReadyAfterRead(cfg, sc, next);
    ReadyAfterReadPrefixed(cfg, sc, at, schema.sent, FromTable(cfg, sc, next));
  }

  /** Provisioning never declares the store ready from a write's status alone: when it
      reaches Ready, the last request it issued was a count query that the store answered
      with 200 and no exceptions. */
  lemma ReadyOnlyAfterAcceptedQuery(cfg: Settings, kafka: KafkaMetadata, sc: Script, at: nat)
    ensures ReadyAfterRead(cfg, sc, at, Provision(cfg, kafka, sc, at))
  {
    var live := CheckController(cfg, sc, at);
    if live.ok && CheckKafka(cfg, kafka).ok {
      var next := at + |live.sent|;
      FromSchemaReadyAfterRead(cfg, sc, next);
      ReadyAfterReadPrefixed(cfg, sc, at, live.sent, FromSchema(cfg, sc, next));
      assert Provision(cfg, kafka, sc, at) == After(live.sent, FromSchema(cfg, sc, next));
    } else {
      assert Provision(cfg, kafka, sc, at).stage != Ready;
    }
  }

  /** The two count-query classifiers differ: the periodic probe is strictly stronger, as
      an answer with no rows passes verify/repair and the final check but fails the probe. */
  lemma ProbeStricterThanVerify(r: Response)
    ensures ProbeHealthy(r) ==> QueryAccepted(r)
    ensures r == Answered(200, Body([], None, Some([]), Some([]))) ==>
      QueryAccepted(r) && !ProbeHealthy(r)
  {
  }

  /** Every step of `main` before consumption succeeds, in order: liveness, Kafka,
      schema, table, verify/repair, and the final count query accepted; each step runs
      from where the previous one stopped in the script. */
  predicate EveryStepSucceeds(cfg: Settings, kafka: KafkaMetadata, sc: Script, at: nat)
  {
    var live := CheckController(cfg, sc, at);
    var schema := EnsureSchema(cfg, sc, at + |live.sent|);
    var table := EnsureTable(cfg, sc, at + |live.sent| + |schema.sent|);
    var verified := VerifyAndRepair(cfg, sc, at + |live.sent| + |schema.sent| + |table.sent|);
    var final := Answer(sc, at + |live.sent| + |schema.sent| + |table.sent|, |verified.sent|);
    live.ok && CheckKafka(cfg, kafka).ok && schema.ok && table.ok && verified.ok && QueryAccepted(final)
  }

  /** `main` reaches the consumer iff every step succeeds. */
  lemma ReadyIffEveryStepSucceeds(cfg: Settings, kafka: KafkaMetadata, sc: Script, at: nat)
    ensures Provision(cfg, kafka, sc, at).stage == Ready <==> EveryStepSucceeds(cfg, kafka, sc, at)
  {
    var live := CheckController(cfg, sc, at);
    var p1 := at + |live.sent|;
    if live.ok && CheckKafka(cfg, kafka).ok {
      assert Provision(cfg, kafka, sc, at) == After(live.sent, FromSchema(cfg, sc, p1));
      var schema := EnsureSchema(cfg, sc, p1);
      var p2 := p1 + |schema.sent|;
      var table := EnsureTable(cfg, sc, p2);
    }
  }

  /** A failed liveness or Kafka check stops before any request to the schema. */
  lemma ProvisionStopsEarly(cfg: Settings, kafka: KafkaMetadata, sc: Script, at: nat)
    ensures var live := CheckController(cfg, sc, at);
      !(live.ok && CheckKafka(cfg, kafka).ok) ==>
        Provision(cfg, kafka, sc, at).sent == live.sent
        && Provision(cfg, kafka, sc, at).stage in {ControllerUnavailable, KafkaUnavailable}
  {
  }

  /** A store without the schema or the table that answers every request with 200: the run
      lists and creates the schema, lists and creates the table, and is Ready after two
      accepted count queries (verify/repair's and the final one). */
  lemma EmptyStoreScenario(cfg: Settings)
    ensures var ok := Answered(200, Body([], Some([]), Some([]), Some([0])));
      var r := Provision(cfg, Topics({cfg.kafkaTopic}), [ok, ok, ok, ok, ok, ok, ok], 0);
      && r.stage == Ready
      && r.sent == [HealthGet(cfg, "/health"), ListSchemas(cfg), CreateSchema(cfg),
                    ListTables(cfg), CreateTable(cfg), CountQuery(cfg), CountQuery(cfg)]
  {
    var ok := Answered(200, Body([], Some([]), Some([]), Some([0])));
    var sc := [ok, ok, ok, ok, ok, ok, ok];
    assert FromVerification(cfg, sc, 5) == Provisioned(Ready, [CountQuery(cfg), CountQuery(cfg)]);
    assert !TableListed(cfg, Answer(sc, 3, 0));
    assert FromTable(cfg, sc, 3).sent == [ListTables(cfg), CreateTable(cfg), CountQuery(cfg), CountQuery(cfg)];
    assert !SchemaListed(cfg, Answer(sc, 1, 0));
    assert FromSchema(cfg, sc, 1).stage == Ready;
    assert CheckController(cfg, sc, 0) == Step(true, [HealthGet(cfg, "/health")]);
  }
}

=== FILE: wrappers.dfy ===
/** Optional values, used wherever the modelled program reads something that may be absent:
    an unreadable file, a missing JSON member, an undecodable payload. */
module Wrappers {

  datatype Option<+T> = None | Some(value: T) {

    /** The value if present, otherwise `default` (Python's `dict.get(key, default)`). */
    function GetOr(default: T): (r: T)
      ensures Some? ==> r == value
      ensures None? ==> r == default
    {
      match this
      case Some(v) => v
      case None => default
    }
  }
}
